=== FILE: README.md ===
# WebSocket++ server handshake, modelled in Dafny

This project models the opening-handshake logic of `role::server::connection`
in WebSocket++ (`src/roles/server.hpp`). Without the Boost.Asio plumbing, a
connection is a small sequential state machine:

- **handle_read_request** classifies the parsed request. It is a WebSocket
  upgrade when the `Upgrade` header contains "websocket" in any letter case.
  Otherwise it is plain HTTP.
- On the **WebSocket path**, `Sec-WebSocket-Version` is read with C `atoi`
  semantics. Only 7, 8 and 13 get a processor. Every other value is a 400,
  in most cases with `Sec-WebSocket-Version: 13, 8, 7` (section 4.4 of
  RFC 6455). Then come the processor's validation, origin and URI, and the
  application's `validate` hook. Success sets 101.
- On the **plain HTTP path**, the application's `http` hook runs first. Then
  the URI is built from the `Host` header, split at its first `:`, and the
  status is set to 200.
- **Negotiation setters** (`select_subprotocol`, `select_extension`,
  `set_body`) are validated. The server's choice is empty or one of the
  client's offers (section 4.2.2 of RFC 6455).
- **write_response** adds the processor's headers and the selected
  subprotocol to a 101. It adds the `Server` header to every response.
- **handle_write_response** handles the end. A failed write aborts. Otherwise
  the source first calls `log_open_result`, which reads `m_uri`. On every
  error path before a URI was loaded, that pointer is null (Findings, row 1).
  `Findings.HandleWriteResponseAsWritten` models the code as written. The
  whole run `Handshake` uses the corrected step `HandleWriteResponse`, in
  which a non-101 response closes gracefully and a 101 moves the connection
  to OPEN once, calls `on_open` and starts the frame loop.

The model is functional. A `Connection` datatype holds the connection's
fields. Every step is a pure function from the connection and its inputs to
an outcome value. The collaborators are inputs:

- the network (read and write succeed or fail);
- the HTTP parser (a parsed `Request`, or none);
- the processor (`Processor`: validation outcome, origin, URI, handshake
  headers);
- the `uri` constructor (`makeUri`);
- the application's hooks.

A hook is modelled as the setter calls it makes, followed by either a return
or a thrown `http::exception`. A hook that catches a setter's
`invalid_argument` behaves the same as a script without that call, because a
refused setter changes nothing. A setter error the hook does not catch
escapes `handle_read_request`, since that function catches only
`http::exception` and `uri_exception`. The model records this as the fate
`Uncaught`, and nothing is written.

Files and modules:

- `wrappers.dfy` (`Wrappers`): Option, Result and Outcome.
- `ascii.dfy` (`Ascii`): the case-insensitive substring search
  (`boost::ifind_first`) and the first-occurrence search (`std::string::find`).
- `cint.dfy` (`CInt`): `atoi`, with a decimal spelling `Decimal` as its
  reference.
- `http.dfy` (`Http`): the request and response values, the header
  mutators, and the two catch clauses.
- `connection.dfy` (`ServerConnection`): the connection state, the validated
  setters, and the application hooks.
- `handshake.dfy` (`ServerHandshake`): version selection, Host splitting,
  `handle_read_request`, `write_response`, `handle_write_response` and the
  whole run `Handshake`.
- `properties.dfy` (`HandshakeProperties`): end-to-end properties of a run.
- `findings.dfy` (`Findings`): `handle_write_response` as written, with its
  two defects shown on concrete inputs.

A version header that `atoi` reads as 0 (such as "abc" or "0") gets 400,
thrown as "Unable to determine connection version", and **without** the
`Sec-WebSocket-Version: 13, 8, 7` advertisement (server.hpp:193-195). Only an
absent header and a nonzero unsupported number carry the advertisement. See
`UnreadableVersionRejected`.

The read handler's own rejections throw `http::exception(text, 400)`. The
catch clause logs `e.what()` (server.hpp:245) and sends `e.m_error_msg` as
the reason phrase (server.hpp:246). The exception class is not part of this
model, so it is not known which of the two the two-argument constructor
fills. The model keeps them apart:

- the fault carries `what` and `message` separately;
- the logged text is the event `ErrorLogged(fault)`, whose `what` is the
  thrown text;
- the reason phrase of those rejections is the input
  `Environment.defaultReason`, the `m_error_msg` a two-argument
  `http::exception` holds;
- their response body is the input `Environment.defaultBody`, the `m_body`
  the same constructor leaves (server.hpp:247 sends it).

`HandleReadRequest` requires a connection fresh from the constructor
(`Fresh`). This is the only state in which the source calls
`handle_read_request`, because `async_init` schedules it once per
connection.

Two further behaviours of the source are kept and stated:

- A fault carrying status 101 can come from an oracle: a processor check, or a
  hook throwing `http::exception` with code 101. Such a fault puts 101 on the
  response through the catch clause. On the HTTP path no processor exists, so
  `write_response` would then dereference a null processor. The model makes
  this visible as the fate `Undefined(MissingProcessor)`. The end-to-end
  properties that need 101 to mean "negotiated" assume `FaultsAreErrors`.
- Host splitting uses the first `:`, so a bracketed IPv6 literal is cut inside
  its brackets (`SplitHostIPv6Literal`).

## Model

Rows marked "Corrected" state properties of the run with the corrected
`handle_write_response` (see "## Findings"). In the code as written, a
non-101 answer on a path that never loaded a URI stops at the null `m_uri`
in `log_open_result` before `terminate(true)`.

| member | source | states |
|---|---|---|
| Ascii.FindIgnoreCase | src/roles/server.hpp:184-185 | The result is the first position where the pattern occurs ignoring ASCII case; None only when it occurs nowhere |
| Ascii.ContainsIgnoreCaseIff | src/roles/server.hpp:185 | The Upgrade test succeeds exactly when the word is non-empty and a case-insensitive occurrence of it exists (boost's finder returns an empty range for an empty pattern, which tests false) |
| Ascii.ContainsIgnoreCaseInContext | src/roles/server.hpp:185 | Extra tokens before or after "websocket" in the Upgrade header never hide it |
| Ascii.ContainsIgnoreCaseIgnoresCase | src/roles/server.hpp:185 | Two headers differing only in letter case are classified alike |
| Ascii.Find | src/roles/server.hpp:230 | Position of the first ':' in the Host header, or None exactly when there is no ':' |
| CInt.SpaceRun | src/roles/server.hpp:192 | atoi's leading white-space run: all of it is white space and it stops at the first non-space |
| CInt.DigitRun | src/roles/server.hpp:192 | atoi's digit run: all digits, ending at the first non-digit |
| CInt.Atoi | src/roles/server.hpp:192 | atoi: only a '-' after the leading white space gives a negative number, and with neither sign nor digit there the result is 0 |
| CInt.DecimalValue | src/roles/server.hpp:192 | The digit value of a decimal spelling is the number spelled |
| CInt.DigitRunStopsAtNonDigit | src/roles/server.hpp:192 | A digit string followed by a non-digit is read up to exactly the non-digit |
| CInt.AtoiReadsDecimal | src/roles/server.hpp:192 | atoi of a decimal number followed by a non-digit is that number ("13abc" gives 13) |
| CInt.AtoiReadsNegativeDecimal | src/roles/server.hpp:192 | A leading '-' negates the number read ("-1" gives -1) |
| CInt.AtoiUnspaced | src/roles/server.hpp:192 | Without leading white space atoi reads an optional sign and then the digit run |
| CInt.AtoiReadsDigits | src/roles/server.hpp:192 | Any digit string followed by a non-digit reads as its value, leading zeros included |
| CInt.AtoiReadsSignedDigits | src/roles/server.hpp:192 | A '+' before a digit string changes nothing and a '-' negates it |
| CInt.AtoiNonCanonicalExamples | src/roles/server.hpp:192 | "013" and "+13" both read as 13, so both select version 13 |
| CInt.AtoiDropsSpace | src/roles/server.hpp:192 | One leading white-space character does not change what atoi reads |
| CInt.AtoiSkipsSpace | src/roles/server.hpp:192 | Any leading white space is skipped by atoi |
| CInt.AtoiWithoutNumber | src/roles/server.hpp:192 | A value starting with no space, sign or digit reads as 0 ("abc" gives 0) |
| Http.AddHeader | src/roles/server.hpp:200 | add_header sets a new header, or appends ", value" to an existing one; other headers unchanged |
| Http.ReplaceHeader | src/roles/server.hpp:265 | replace_header leaves the header with exactly the given value; other headers unchanged |
| Http.RemoveHeader | src/roles/server.hpp:91-93 | remove_header drops only that header |
| Http.Request.Header | src/roles/server.hpp:184-187 | A header lookup gives the value, or "" when absent, so an absent header and one sent empty are treated alike |
| Http.ApplyFault | src/roles/server.hpp:244-252 | A caught http::exception sets status, reason phrase (its m_error_msg, not its what()) and body from its payload; a uri_exception sets 400; headers added before the throw stay |
| ServerConnection.NewConnection | src/roles/server.hpp:143-147 | A constructed connection has the HTTP sentinel version -1, no URI, no processor, nothing selected, and is CONNECTING |
| ServerConnection.SelectSubprotocol | src/roles/server.hpp:101-113 | Succeeds iff the value is "" or offered, and then only the selection changes; otherwise invalid_argument; keeps the selection within the offers |
| ServerConnection.SelectExtension | src/roles/server.hpp:114-130 | "" is a no-op; an offered value is appended once at the end; an unoffered one is refused with invalid_argument and changes nothing |
| ServerConnection.SetBody | src/roles/server.hpp:132-140 | Succeeds iff the version is the HTTP sentinel, and then only the response body changes; otherwise invalid_argument |
| ServerConnection.Perform | src/roles/server.hpp:85-140 | One hook call: only the three negotiation setters can refuse; the response-header mutators always succeed and change only the response; every call keeps the negotiation invariant |
| ServerConnection.PerformAll | src/roles/server.hpp:101-140 | Running a hook's setter calls never counts as the hook throwing an http::exception: it completes, or a setter's invalid_argument escapes |
| ServerConnection.PerformAllAppend | src/roles/server.hpp:101-140 | A hook's calls run in order: the second part of a script runs on what the first left, and a refusal in the first part ends the hook there |
| ServerConnection.PerformAllSingle | src/roles/server.hpp:101-140 | One call completes with the setter's result, or ends the hook with its invalid_argument and the connection unchanged |
| ServerConnection.RunHook | src/roles/server.hpp:217-222 | A hook's run is reported as thrown exactly with the fault the hook throws, and as completed only when the hook returns |
| ServerConnection.PerformAllKeepsNegotiation | src/roles/server.hpp:101-140 | Any sequence of setter calls keeps the selection among the offers, only extends the accepted extensions, and touches nothing but the negotiation and the response |
| ServerConnection.RunHookKeepsNegotiation | src/roles/server.hpp:217-222 | However a hook ends, the negotiation invariant and the hook's frame hold |
| ServerConnection.SetBodyEscapesUpgrade | src/roles/server.hpp:133-137 | On a WebSocket connection, a hook that calls set_body throws out of it with no change |
| ServerHandshake.DecideVersion | src/roles/server.hpp:186-211 | Version is 0 for an absent header, else atoi of it; a processor iff 7, 8 or 13; rejections advertise "13, 8, 7" iff the header was absent or the version nonzero |
| ServerHandshake.DecideVersionOfDecimal | src/roles/server.hpp:192-211 | A decimal version followed by non-digits is accepted iff it is 7, 8 or 13; otherwise rejected, advertised iff nonzero |
| ServerHandshake.DecideVersionOfNegative | src/roles/server.hpp:192-211 | A negative version is rejected with the advertisement, and "-1" yields version -1 |
| ServerHandshake.DecideVersionOfText | src/roles/server.hpp:192-195 | A non-numeric value such as "abc" is rejected as unreadable, without the advertisement |
| ServerHandshake.IsUpgrade | src/roles/server.hpp:184-185 | A request is an upgrade exactly when "websocket" occurs, ignoring case, somewhere in its Upgrade header |
| ServerHandshake.SplitHost | src/roles/server.hpp:228-240 | Without ':' the whole header is the host; otherwise the header is host ":" port with no ':' in host |
| ServerHandshake.SplitHostJoin | src/roles/server.hpp:230-238 | Splitting "host:port" with a colon-free host gives back host and port |
| ServerHandshake.SplitHostIPv6Literal | src/roles/server.hpp:230-238 | "[::1]:80" splits into host "[" and port text ":1]:80" |
| ServerHandshake.HostUriParts | src/roles/server.hpp:228-240 | The URI parts on the HTTP path: the endpoint's secure flag, the split Host header and the request target |
| ServerHandshake.UpgradePath | src/roles/server.hpp:186-219 | The WebSocket branch: version from the header; processor iff supported; success only with 101, a URI, and both the processor and validate hook run |
| ServerHandshake.PlainPath | src/roles/server.hpp:220-243 | The HTTP branch: http hook runs once; version and processor untouched; success only with 200 and a URI |
| ServerHandshake.HandleReadRequest | src/roles/server.hpp:164-255 | A read failure aborts; upgrade recorded iff the parsed Upgrade names websocket; processor iff a supported upgrade; unparseable gives 400 with the default reason phrase and body, no hook run and the thrown text logged; when no collaborator fault carries 101 (`FaultsAreErrors`), a 101 comes only with a processor and URI |
| ServerHandshake.AssembleResponse | src/roles/server.hpp:257-273 | HTTP/1.1 and the Server header always; a 101 gets the processor's headers and a selected subprotocol; a non-101 changes only Server; 101 without processor is the defect |
| ServerHandshake.HandleWriteResponse | src/roles/server.hpp:290-322 | Corrected (see ## Findings): write failure aborts; a non-101 closes gracefully and logs an error iff an upgrade was asked; 101 sets OPEN, calls on_open once and starts the frame loop |
| ServerHandshake.WriteAndDispose | src/roles/server.hpp:254-322 | Corrected (see ## Findings): after the read handler, on_open occurs once iff the connection opens, and only for a 101 with a processor |
| ServerHandshake.Handshake | src/roles/server.hpp:164-322 | Corrected (see ## Findings): OPEN iff opened, only for a 101 on a supported upgrade; processor iff supported upgrade; Server always set; negotiation valid; on_open at most once |
| HandshakeProperties.OpenOnlyAfterNegotiation | src/roles/server.hpp:199-219 | When no collaborator fault carries 101 (`FaultsAreErrors`), an open connection had a supported upgrade, a passing processor check and URI, and a validate hook that returned, with both steps logged before on_open |
| HandshakeProperties.PlainRequestNeverOpens | src/roles/server.hpp:220-243 | A non-upgrade never opens or gets a processor; version stays -1; the http hook runs exactly once and validate never |
| HandshakeProperties.PlainRequestServed | src/roles/server.hpp:220-243 | A plain request whose hook returns and whose Host yields a URI gets 200, that URI and Origin, then a graceful close |
| HandshakeProperties.GarbageRequestRejected | src/roles/server.hpp:177-179 | Corrected (see ## Findings): an unparseable request is answered 400 with the default reason phrase and body, no hook run and "Recieved invalid HTTP Request" logged, then closed gracefully |
| HandshakeProperties.MissingVersionRejected | src/roles/server.hpp:187-202 | Corrected (see ## Findings): an upgrade without Sec-WebSocket-Version gets version 0, 400 with the default reason phrase and body, the advertisement, "Unsupported WebSocket version" logged, and never opens |
| HandshakeProperties.UnreadableVersionRejected | src/roles/server.hpp:192-195 | A version atoi reads as 0 gets version 0 and 400 without the advertisement; the thrown text "Unable to determine connection version" is what is logged, and the reason phrase and body are the default ones |
| HandshakeProperties.UnsupportedVersionRejected | src/roles/server.hpp:207-211 | Any other unsupported version gets 400 with the advertisement and the default reason phrase and body, "Unsupported WebSocket version" logged, and no processor |
| HandshakeProperties.SupportedVersionValidated | src/roles/server.hpp:203-213 | 7, 8 and 13 create a processor first, and a failed validation answers with the processor's status |
| HandshakeProperties.ValidateRejectionRead | src/roles/server.hpp:186-219 | For an upgrade to any supported version (7, 8 or 13, in any spelling atoi accepts) whose validate hook throws, the read handler catches its fault: the response carries the fault's status and payload and the fault is logged after both steps |
| HandshakeProperties.ValidateRejectionAnswered | src/roles/server.hpp:186-313 | On an upgrade to any supported version, a validate hook that throws is answered with its status, reason phrase and body; the connection opens iff that status is 101, and otherwise closes with the handshake error logged |
| HandshakeProperties.UpgradeAnswerDisposed | src/roles/server.hpp:257-313 | Corrected (see ## Findings): writing an upgrade answer with a processor keeps its status, reason phrase and body; only 101 opens, any other status closes with the handshake error logged |
| HandshakeProperties.SuccessfulUpgradeRead | src/roles/server.hpp:186-219 | A version-13 upgrade accepted by processor and hook leaves 101, processor, URI and origin set |
| HandshakeProperties.SuccessfulUpgradeOpens | src/roles/server.hpp:213-321 | Such an upgrade gets 101 with the processor's headers and the subprotocol, OPEN, and on_open exactly once |
| HandshakeProperties.HandshakeAfterRead | src/roles/server.hpp:252-255 | Once the read handler has decided a response, the run goes on to write_response and handle_write_response with the connection and events it left |
| HandshakeProperties.PlainHook101Undefined | src/roles/server.hpp:221-262 | Without FaultsAreErrors, an http hook that throws a fault carrying 101 leads write_response to the missing processor |
| HandshakeProperties.Check101Read | src/roles/server.hpp:203-215 | Without FaultsAreErrors, a processor check failing with 101 leaves 101 on the response with a processor but no URI |
| HandshakeProperties.Check101Opens | src/roles/server.hpp:203-321 | Without FaultsAreErrors, such a check opens the connection with no URI and without running the validate hook |
| HandshakeProperties.HostHeaderExamples | src/roles/server.hpp:228-240 | "example.com:9000" gives host "example.com" and port "9000"; "example.com" gives no port |
| HandshakeProperties.UpgradeHeaderExamples | src/roles/server.hpp:184-185 | "WebSocket" among other text is an upgrade; "keep-alive" is not |
| Findings.HandleWriteResponseAsWritten | src/roles/server.hpp:290-334 | As written: fails on a missing URI after a successful write; past that, logs the error iff version is not -1 and otherwise agrees with the corrected step |
| Findings.HandleWriteResponseUriGuarded | src/roles/server.hpp:302-313 | The write handler with only the URI read guarded: same fate and state as the corrected step, but the error log is chosen by version != -1, as line 303 writes it |
| Findings.GarbageRequestReadsMissingUri | src/roles/server.hpp:300 | An unparseable request reaches the logging with no URI loaded |
| Findings.RejectedVersionReadsMissingUri | src/roles/server.hpp:199-211 | Every rejected upgrade version reaches the logging with no URI loaded |
| Findings.WrittenHandshakeAlwaysDisposed | src/roles/server.hpp:300-321 | Corrected: when no collaborator fault carries 101 (`FaultsAreErrors`), a read and written handshake always ends closed gracefully or open, unless a setter error escaped |
| Findings.MinusOneVersionReportedAsPlainHttp | src/roles/server.hpp:303 | Version "-1" on an upgrade leaves the version equal to the sentinel; as written the missing URI is read first, and once that read is guarded the failure is not reported as a handshake error while the corrected step reports it |
| Findings.HandshakeErrorLoggedIffUpgradeFailed | src/roles/server.hpp:302-313 | Corrected: after a written non-101, the handshake error is logged iff the request asked for an upgrade |

## Findings

| source | as written | input that shows it | evidently intended | confidence | as-written member | corrected member |
|---|---|---|---|---|---|---|
| src/roles/server.hpp:324-333 | `log_open_result` dereferences `m_uri` after every successful write. On every error path before the URI is loaded, `m_uri` is still null. | A request the parser rejects, or `Upgrade: websocket` with no `Sec-WebSocket-Version` | Log the resource only when a URI was loaded, then close gracefully | high that the pointer is null (the TODO at line 70 says so); not executed | Findings.HandleWriteResponseAsWritten (shown by Findings.GarbageRequestReadsMissingUri, Findings.RejectedVersionReadsMissingUri) | ServerHandshake.HandleWriteResponse (Findings.WrittenHandshakeAlwaysDisposed) |
| src/roles/server.hpp:303 | After a non-101 response, the code decides "this was a WebSocket attempt" by `m_version != -1`. `atoi("-1")` puts -1, the HTTP sentinel, into `m_version`. Latent: on this input the null `m_uri` of row 1 is read first, so the misreport shows only once that read is guarded. | `Upgrade: websocket`, `Sec-WebSocket-Version: -1`, once row 1 is repaired | A failed upgrade is always reported as a handshake error | medium (latent behind row 1; only the log line and the "HTTP"/"WebSocket" label differ); not executed | Findings.HandleWriteResponseUriGuarded (shown by Findings.MinusOneVersionReportedAsPlainHttp) | ServerHandshake.HandleWriteResponse (Findings.HandshakeErrorLoggedIffUpgradeFailed) |

## Left out

- Socket I/O and the event loop are left out: `async_init`, `async_read_until`, `async_write`, `listen`, `start_accept` and `handle_accept` (server.hpp:150-162, 391-439). Whether the read and the write succeed is an input (`Wire`), and the accept loop is not modelled.
- The missing handshake deadline and the unbounded read buffer belong to the I/O that is left out.
- `shared_from_this` lifetime and the concurrency of completion handlers are left out. One handshake is a sequential run here.
- The HTTP parser (`parse_complete`, `raw()`, header storage) is an input. Request headers are looked up by their exact name. The parser's case-insensitive lookup is not modelled.
- `add_header` is assumed to append ", value" to a header already present. The parser code is not part of this model.
- Serialization of the response is not modelled.
- `processor::hybi` is an input (`Processor`): `validate_handshake`, `get_origin`, `get_uri`, and `handshake_response` with its accept key.
- The `uri` constructor, its port parsing and its default port are an input (`makeUri`). A `uri_exception` is a None from it.
- Logging and `blank_rng` are left out. The parts of logging kept are the catch clauses' log of the caught fault (event `ErrorLogged`), the read of the URI in `log_open_result` (Findings) and the handshake-error log line (event `HandshakeErrorLogged`).
- The `http::exception` class is not part of this model, and the model assumes one layout for its two-argument constructor. The thrown text is what `what()` returns. The reason phrase and the body do not depend on that text: they are one default pair, shared by the three throws at server.hpp:179, 194 and 202/210. That pair is the inputs `Environment.defaultReason` and `Environment.defaultBody`. If the constructor copied its text into `m_error_msg`, the reason phrase would be the thrown text, and this model would not show it.
- Without `FaultsAreErrors`, a collaborator fault carrying 101 puts 101 on the response through the catch clause (server.hpp:246). On the HTTP path this reaches the null processor, seen as the fate `Undefined(MissingProcessor)`. On the WebSocket path, a processor check that fails with 101 opens the connection with no URI and without the `validate` hook. `PlainHook101Undefined` and `Check101Opens` state these runs. The properties that need 101 to mean "negotiated" assume `FaultsAreErrors`.
- The handler's virtual dispatch is left out. `validate` and `http` are scripts of setter calls plus an ending. `on_open` is the event `OnOpen`. `on_close`, `on_message`, `on_ping`, `on_pong` and `on_fail` are not reached during the handshake.
- `handle_read_frame` is the external frame loop, seen only as the event `FrameLoopStarted`.
- `terminate(bool)` lives outside this file. It is modelled as moving the state to CLOSED, with the fates `AbortedOnRead`, `AbortedOnWrite` and `ClosedGracefully`.
- The plain getters are left out: `get_version`, `get_origin`, `get_host`, `get_port`, `get_secure`, `get_resource` and the request-header getter. `get_version` returns `unsigned int`, so the sentinel -1 reads back as 4294967295; this is not modelled.
- `m_requested_subprotocols` and `m_requested_extensions` are never filled in this file, so they are inputs to `NewConnection` and `Handshake`.
- Accepted extensions are never written into the response (the TODO at server.hpp:268). The model reproduces this: `AssembleResponse` does not emit them.
- CInt.Atoi: integers are unbounded. C's `atoi` leaves overflow undefined, so a version header whose number does not fit in an `int` is read as the exact number here.
- Behaviour once an `invalid_argument` escapes `handle_read_request` (into Boost.Asio's `run`) is left out. The model stops with the fate `Uncaught` and writes nothing.

=== FILE: ascii.dfy ===
/** Character-level searches used while classifying a handshake request:
    the case-insensitive substring search applied to the Upgrade header
    (boost::ifind_first) and the first-occurrence search applied to the Host
    header (std::string::find). */
module Ascii {
  import opened Wrappers

  /** ASCII lower-casing; every other character is left alone. */
  function ToLower(c: char): char
  {
    if 'A' <= c <= 'Z' then (c as int + 32) as char else c
  }

  /** `pat` occurs in `h` starting at position `i`, letters compared without regard to case. */
  predicate MatchesAt(h: string, pat: string, i: nat)
  {
    i + |pat| <= |h| && forall k :: 0 <= k < |pat| ==> ToLower(h[i + k]) == ToLower(pat[k])
  }

  /** The first position at or after `from` where `pat` occurs in `h` ignoring case. */
  function FindIgnoreCase(h: string, pat: string, from: nat): (r: Option<nat>)
    decreases |h| - from
    ensures r.Some? ==> from <= r.value && MatchesAt(h, pat, r.value)
    ensures r.Some? ==> forall j :: from <= j < r.value ==> !MatchesAt(h, pat, j)
    ensures r.None? ==> forall j :: from <= j ==> !MatchesAt(h, pat, j)
  {
    if from + |pat| > |h| then None
    else if MatchesAt(h, pat, from) then Some(from)
    else FindIgnoreCase(h, pat, from + 1)
  }

  /** `h` contains `pat` somewhere, ignoring case. An empty pattern is never
      found: boost's finder returns an empty range for it, which tests false. */
  predicate ContainsIgnoreCase(h: string, pat: string)
  {
    |pat| > 0 && FindIgnoreCase(h, pat, 0).Some?
  }

  /** The search finds a non-empty pattern exactly when it occurs. */
  lemma ContainsIgnoreCaseIff(h: string, pat: string)
    ensures ContainsIgnoreCase(h, pat) <==> |pat| > 0 && exists i: nat :: MatchesAt(h, pat, i)
  {
    var r := FindIgnoreCase(h, pat, 0);
    if r.Some? {
      assert MatchesAt(h, pat, r.value);
    }
  }

  /** A match survives text added on either side: extra tokens around the
      searched word never hide it. */
  lemma {:induction false} ContainsIgnoreCaseInContext(h: string, pat: string, before: string, after: string)
    requires ContainsIgnoreCase(h, pat)
    ensures ContainsIgnoreCase(before + h + after, pat)
  {
    var i := FindIgnoreCase(h, pat, 0).value;
    var w := before + h + after;
    forall k | 0 <= k < |pat|
      ensures ToLower(w[|before| + i + k]) == ToLower(pat[k])
    {
      assert w[|before| + i + k] == h[i + k];
    }
    assert MatchesAt(w, pat, |before| + i);
    ContainsIgnoreCaseIff(w, pat);
  }

  /** Two strings that differ only in the case of their letters give the same answer. */
  lemma {:induction false} ContainsIgnoreCaseIgnoresCase(h: string, h': string, pat: string)
    requires |h| == |h'|
    requires forall k :: 0 <= k < |h| ==> ToLower(h[k]) == ToLower(h'[k])
    ensures ContainsIgnoreCase(h, pat) <==> ContainsIgnoreCase(h', pat)
  {
    ContainsIgnoreCaseIff(h, pat);
    ContainsIgnoreCaseIff(h', pat);
    forall i: nat | MatchesAt(h, pat, i)
      ensures MatchesAt(h', pat, i)
    {
      forall k | 0 <= k < |pat|
        ensures ToLower(h'[i + k]) == ToLower(pat[k])
      {
        assert ToLower(h[i + k]) == ToLower(h'[i + k]);
      }
    }
    forall i: nat | MatchesAt(h', pat, i)
      ensures MatchesAt(h, pat, i)
    {
      forall k | 0 <= k < |pat|
        ensures ToLower(h[i + k]) == ToLower(pat[k])
      {
        assert ToLower(h[i + k]) == ToLower(h'[i + k]);
      }
    }
  }

  /** The first position of `c` in `s`, or None when `c` does not occur. */
  function Find(s: string, c: char): (r: Option<nat>)
    ensures r.Some? ==> r.value < |s| && s[r.value] == c && c !in s[..r.value]
    ensures r.None? <==> c !in s
  {
    if |s| == 0 then None
    else if s[0] == c then Some(0)
    else match Find(s[1..], c)
      case None => None
      case Some(i) =>
        assert s[..i + 1] == [s[0]] + s[1..][..i];
        Some(i + 1)
  }
}

=== FILE: cint.dfy ===
/** The C library's `atoi`, which turns the Sec-WebSocket-Version header into
    a number: leading white space is skipped, one optional sign is read, then
    the run of decimal digits that follows; anything after the digits is
    ignored and a string with no digits there reads as 0. Integers are
    unbounded here; see README for the overflow case. */
module CInt {

  /** The characters C's isspace accepts in the "C" locale: space, \t, \n, \v, \f, \r. */
  predicate IsSpace(c: char)
  {
    c == ' ' || '\t' <= c <= '\r'
  }

  predicate IsDigit(c: char)
  {
    '0' <= c <= '9'
  }

  predicate AllDigits(s: string)
  {
    forall k :: 0 <= k < |s| ==> IsDigit(s[k])
  }

  /** Number of white-space characters at the front of `s`. */
  function SpaceRun(s: string): (n: nat)
    ensures n <= |s|
    ensures forall k :: 0 <= k < n ==> IsSpace(s[k])
    ensures n < |s| ==> !IsSpace(s[n])
  {
    if |s| == 0 || !IsSpace(s[0]) then 0 else 1 + SpaceRun(s[1..])
  }

  /** Number of decimal digits at the front of `s`. */
  function DigitRun(s: string): (n: nat)
    ensures n <= |s|
    ensures AllDigits(s[..n])
    ensures n < |s| ==> !IsDigit(s[n])
  {
    if |s| == 0 || !IsDigit(s[0]) then 0
    else
      var n := 1 + DigitRun(s[1..]);
      assert forall k :: 1 <= k < n ==> s[..n][k] == s[1..][..n - 1][k - 1];
      n
  }

  /** The numeric value of a digit string, most significant digit first. */
  function DigitsValue(s: string): nat
    requires AllDigits(s)
  {
    if |s| == 0 then 0
    else 10 * DigitsValue(s[..|s| - 1]) + (s[|s| - 1] as int - '0' as int)
  }

  /** The value of the digit run at the front of `s`. */
  function LeadingValue(s: string): nat
  {
    var n := DigitRun(s);
    DigitsValue(s[..n])
  }

  /** atoi(s), without the overflow C leaves undefined. Only a '-' right after
      the white space makes the result negative, and when neither a sign nor a
      digit follows the white space the result is 0. */
  function Atoi(s: string): (r: int)
    ensures r < 0 ==> SpaceRun(s) < |s| && s[SpaceRun(s)] == '-'
    ensures SpaceRun(s) == |s| ==> r == 0
    ensures SpaceRun(s) < |s| && !(IsDigit(s[SpaceRun(s)]) || s[SpaceRun(s)] == '+' || s[SpaceRun(s)] == '-') ==> r == 0
  {
    var t := s[SpaceRun(s)..];
    if |t| > 0 && t[0] == '-' then -(LeadingValue(t[1..]) as int)
    else if |t| > 0 && t[0] == '+' then LeadingValue(t[1..])
    else LeadingValue(t)
  }

  /** The character of a decimal digit. */
  function DigitChar(d: nat): (c: char)
    requires d < 10
    ensures IsDigit(c) && c as int - '0' as int == d
  {
    ('0' as int + d) as char
  }

  /** The shortest decimal spelling of `n` (the reference the parser is checked against). */
  function Decimal(n: nat): (s: string)
    ensures |s| > 0 && AllDigits(s)
  {
    if n < 10 then [DigitChar(n)] else Decimal(n / 10) + [DigitChar(n % 10)]
  }

  /** Reading back a decimal spelling gives the number spelled. */
  lemma {:induction false} DecimalValue(n: nat)
    ensures DigitsValue(Decimal(n)) == n
  {
    var s := Decimal(n);
    if n >= 10 {
      DecimalValue(n / 10);
      assert s[..|s| - 1] == Decimal(n / 10);
    }
  }

  /** The digit run of a digit string followed by a non-digit stops exactly at the non-digit. */
  lemma DigitRunStopsAtNonDigit(d: string, rest: string)
    requires AllDigits(d)
    requires rest == [] || !IsDigit(rest[0])
    ensures DigitRun(d + rest) == |d|
    ensures (d + rest)[..|d|] == d
  {
    var s := d + rest;
    assert forall k :: 0 <= k < |d| ==> s[k] == d[k];
    if |d| < |s| {
      assert s[|d|] == rest[0];
    }
  }

  /** atoi reads a decimal number up to the first non-digit: atoi("13abc") is 13. */
  lemma AtoiReadsDecimal(n: nat, rest: string)
    requires rest == [] || !IsDigit(rest[0])
    ensures Atoi(Decimal(n) + rest) == n
  {
    var s := Decimal(n) + rest;
    assert s[0] == Decimal(n)[0];
    assert !IsSpace(s[0]);
    assert s[0..] == s;
    DigitRunStopsAtNonDigit(Decimal(n), rest);
    DecimalValue(n);
  }

  /** The value read from a digit string followed by a non-digit is the value
      of the digit string. */
  lemma LeadingValueOfDigits(d: string, rest: string)
    requires AllDigits(d)
    requires rest == [] || !IsDigit(rest[0])
    ensures LeadingValue(d + rest) == DigitsValue(d)
  {
    DigitRunStopsAtNonDigit(d, rest);
  }

  /** Without leading white space atoi reads the sign, if any, then the digits. */
  lemma AtoiUnspaced(s: string)
    requires |s| > 0 && !IsSpace(s[0])
    ensures s[0] == '-' ==> Atoi(s) == -(LeadingValue(s[1..]) as int)
    ensures s[0] == '+' ==> Atoi(s) == LeadingValue(s[1..])
    ensures s[0] != '-' && s[0] != '+' ==> Atoi(s) == LeadingValue(s)
  {
    assert SpaceRun(s) == 0;
    assert s[0..] == s;
  }

  /** A digit string is read for its value, whatever its spelling: leading
      zeros count for nothing, so atoi("013") is 13. */
  lemma AtoiReadsDigits(d: string, rest: string)
    requires |d| > 0 && AllDigits(d)
    requires rest == [] || !IsDigit(rest[0])
    ensures Atoi(d + rest) == DigitsValue(d)
  {
    var s := d + rest;
    assert s[0] == d[0];
    AtoiUnspaced(s);
    LeadingValueOfDigits(d, rest);
  }

  /** Either sign in front of a digit string is read: '+' changes nothing and
      '-' negates, so atoi("+13") is 13. */
  lemma AtoiReadsSignedDigits(sign: char, d: string, rest: string)
    requires sign == '+' || sign == '-'
    requires AllDigits(d)
    requires rest == [] || !IsDigit(rest[0])
    ensures Atoi([sign] + d + rest) == if sign == '+' then DigitsValue(d) else -(DigitsValue(d) as int)
  {
    var s := [sign] + d + rest;
    assert s[1..] == d + rest;
    AtoiUnspaced(s);
    LeadingValueOfDigits(d, rest);
  }

  /** Two spellings the canonical form does not cover: atoi("013") and
      atoi("+13") are both 13. */
  lemma AtoiNonCanonicalExamples()
    ensures Atoi("013") == 13
    ensures Atoi("+13") == 13
  {
    assert DigitsValue("013") == 13 by {
      var zero, one, three := "0", "01", "013";
      assert zero[..0] == [] && one[..1] == zero && three[..2] == one;
      assert DigitsValue(zero) == 0;
      assert DigitsValue(one) == 1;
    }
    AtoiReadsDigits("013", []);
    assert "013" + [] == "013";
    DecimalValue(13);
    assert Decimal(13) == "13";
    AtoiReadsSignedDigits('+', "13", []);
    assert ['+'] + "13" + [] == "+13";
  }

  /** A minus sign negates the number read: atoi("-1") is -1. */
  lemma AtoiReadsNegativeDecimal(n: nat, rest: string)
    requires rest == [] || !IsDigit(rest[0])
    ensures Atoi(['-'] + Decimal(n) + rest) == -(n as int)
  {
    var s := ['-'] + Decimal(n) + rest;
    assert !IsSpace(s[0]);
    assert s[0..] == s;
    assert s[1..] == Decimal(n) + rest;
    DigitRunStopsAtNonDigit(Decimal(n), rest);
    DecimalValue(n);
  }

  /** Leading white space is skipped: atoi(" 8") is atoi("8"). */
  lemma {:induction false} AtoiSkipsSpace(ws: string, s: string)
    requires forall k :: 0 <= k < |ws| ==> IsSpace(ws[k])
    ensures Atoi(ws + s) == Atoi(s)
  {
    if |ws| > 0 {
      var w := ws + s;
      assert w[1..] == ws[1..] + s;
      AtoiSkipsSpace(ws[1..], s);
      AtoiDropsSpace(w);
    }
    else {
      assert ws + s == s;
    }
  }

  /** One leading white-space character does not change what atoi reads. */
  lemma AtoiDropsSpace(w: string)
    requires |w| > 0 && IsSpace(w[0])
    ensures Atoi(w) == Atoi(w[1..])
  {
    var n := SpaceRun(w[1..]);
    assert SpaceRun(w) == 1 + n;
    assert w[1 + n..] == w[1..][n..];
  }

  /** A string that does not start with white space, a sign or a digit reads as 0:
      atoi("abc") is 0. */
  lemma AtoiWithoutNumber(s: string)
    requires |s| == 0 || !(IsSpace(s[0]) || IsDigit(s[0]) || s[0] == '+' || s[0] == '-')
    ensures Atoi(s) == 0
  {
    assert s[0..] == s;
    if |s| > 0 {
      assert DigitRun(s) == 0;
      assert s[..0] == [];
    }
  }
}

=== FILE: connection.dfy ===
/** The per-connection state of server::connection and the setters the
    application's hooks call while the handshake is in progress:
    select_subprotocol, select_extension, set_body and the response-header
    mutators. */
module ServerConnection {
  import opened Wrappers
  import opened Http

  /** The version a connection carries until the Upgrade header has been
      inspected, and for good on a plain HTTP connection. */
  const HttpSentinel: int := -1

  datatype SessionState = Connecting | Open | Closed

  /** The request URI once loaded: by the processor on the WebSocket path, from
      the Host header on the HTTP path. */
  datatype Uri = Uri(secure: bool, host: string, port: int, resource: string)

  /** One accepted connection during its handshake.
      `upgradeRequested` records that the Upgrade header named websocket; the
      source keeps no such flag and infers it from `version` (see README). */
  datatype Connection = Connection(
    version: int,
    upgradeRequested: bool,
    hasProcessor: bool,
    uri: Option<Uri>,
    origin: string,
    requestedSubprotocols: seq<string>,
    requestedExtensions: seq<string>,
    subprotocol: string,
    extensions: seq<string>,
    response: Response,
    state: SessionState)

  /** The server's choices are drawn from the client's offers: the selected
      subprotocol is empty or offered, and every accepted extension is offered. */
  predicate NegotiationValid(c: Connection)
  {
    && (c.subprotocol == "" || c.subprotocol in c.requestedSubprotocols)
    && forall i :: 0 <= i < |c.extensions| ==> c.extensions[i] in c.requestedExtensions
  }

  /** A connection as constructed: HTTP sentinel version, no processor, no URI,
      nothing selected, CONNECTING. The client's offers are inputs. */
  function NewConnection(subprotocols: seq<string>, extensions: seq<string>): (c: Connection)
    ensures c.version == HttpSentinel && !c.hasProcessor && c.uri.None?
    ensures c.state == Connecting && !c.upgradeRequested
    ensures c.requestedSubprotocols == subprotocols && c.requestedExtensions == extensions
    ensures NegotiationValid(c)
  {
    Connection(HttpSentinel, false, false, None, "", subprotocols, extensions, "", [], EmptyResponse, Connecting)
  }

  /** The std::invalid_argument a setter throws. */
  datatype UsageError = InvalidArgument(message: string)

  /** select_subprotocol: "" always succeeds and clears the choice; any other
      value must be one the client offered. A refusal changes nothing. */
  function SelectSubprotocol(c: Connection, value: string): (r: Result<Connection, UsageError>)
    ensures r.Success? <==> value == "" || value in c.requestedSubprotocols
    ensures r.Success? ==> r.value == c.(subprotocol := value)
    ensures r.Failure? ==> r.error.message == "Attempted to choose a subprotocol not proposed by the client"
    ensures NegotiationValid(c) && r.Success? ==> NegotiationValid(r.value)
  {
    if value != "" && value !in c.requestedSubprotocols then
      Failure(InvalidArgument("Attempted to choose a subprotocol not proposed by the client"))
    else
      Success(c.(subprotocol := value))
  }

  /** select_extension: "" is a silent no-op; an offered value is appended once
      at the end, earlier entries kept and duplicates allowed; anything else is
      refused and changes nothing. */
  function SelectExtension(c: Connection, value: string): (r: Result<Connection, UsageError>)
    ensures value == "" ==> r == Success(c)
    ensures r.Failure? <==> value != "" && value !in c.requestedExtensions
    ensures r.Failure? ==> r.error.message == "Attempted to choose an extension not proposed by the client"
    ensures r.Success? && value != "" ==> r.value == c.(extensions := c.extensions + [value])
    ensures NegotiationValid(c) && r.Success? ==> NegotiationValid(r.value)
  {
    if value == "" then Success(c)
    else if value !in c.requestedExtensions then
      Failure(InvalidArgument("Attempted to choose an extension not proposed by the client"))
    else
      Success(c.(extensions := c.extensions + [value]))
  }

  /** set_body: allowed only on a plain HTTP connection (version still the
      sentinel); then only the response body changes. */
  function SetBody(c: Connection, value: string): (r: Result<Connection, UsageError>)
    ensures r.Success? <==> c.version == HttpSentinel
    ensures r.Success? ==> r.value == c.(response := c.response.(body := value))
    ensures r.Failure? ==> r.error.message == "set_body called from invalid state"
  {
    if c.version != HttpSentinel then Failure(InvalidArgument("set_body called from invalid state"))
    else Success(c.(response := c.response.(body := value)))
  }

  /** One call an application hook makes on the connection. */
  datatype HookCall =
    | ChooseSubprotocol(value: string)
    | ChooseExtension(value: string)
    | ChooseBody(value: string)
    | AddResponseHeader(name: string, value: string)
    | ReplaceResponseHeader(name: string, value: string)
    | RemoveResponseHeader(name: string)

  /** How a hook finishes once its calls are done: it returns, or throws a fault
      (an http::exception rejecting the handshake). */
  datatype HookEnd = Returns | Throws(fault: Fault)

  /** An application hook (validate or http) as the calls it makes and how it ends.
      A hook that catches a setter's error is this script without that call,
      since a refused setter changes nothing. */
  datatype Hook = Hook(calls: seq<HookCall>, end: HookEnd)

  /** What running a hook leaves behind: it completed, it threw a fault the read
      handler catches, or a setter's invalid_argument escaped it, which the read
      handler does not catch. */
  datatype HookResult =
    | Completed(conn: Connection)
    | Raised(conn: Connection, fault: Fault)
    | Escaped(conn: Connection, error: UsageError)

  /** One call: the three negotiation setters may refuse; the response-header
      mutators always succeed and change only the response. */
  function Perform(c: Connection, call: HookCall): (r: Result<Connection, UsageError>)
    ensures r.Failure? ==> call.ChooseSubprotocol? || call.ChooseExtension? || call.ChooseBody?
    ensures r.Success? ==> HookFrame(c, r.value)
    ensures r.Success? && !call.ChooseSubprotocol? && !call.ChooseExtension? ==>
              r.value == c.(response := r.value.response)
    ensures NegotiationValid(c) && r.Success? ==> NegotiationValid(r.value)
  {
    match call
    case ChooseSubprotocol(v) => SelectSubprotocol(c, v)
    case ChooseExtension(v) => SelectExtension(c, v)
    case ChooseBody(v) => SetBody(c, v)
    case AddResponseHeader(k, v) => Success(c.(response := AddHeader(c.response, k, v)))
    case ReplaceResponseHeader(k, v) => Success(c.(response := ReplaceHeader(c.response, k, v)))
    case RemoveResponseHeader(k) => Success(c.(response := RemoveHeader(c.response, k)))
  }

  /** The calls of a hook in order, stopping at the first refused one. */
  function PerformAll(c: Connection, calls: seq<HookCall>): (r: HookResult)
    ensures !r.Raised?
    decreases |calls|
  {
    if |calls| == 0 then Completed(c)
    else match Perform(c, calls[0])
      case Failure(e) => Escaped(c, e)
      case Success(c') => PerformAll(c', calls[1..])
  }

  /** The calls run in order: a script split in two runs its second part on
      the connection its first part left, and a refusal in the first part
      ends the hook there. */
  lemma {:induction false} PerformAllAppend(c: Connection, a: seq<HookCall>, b: seq<HookCall>)
    ensures PerformAll(c, a).Completed? ==> PerformAll(c, a + b) == PerformAll(PerformAll(c, a).conn, b)
    ensures !PerformAll(c, a).Completed? ==> PerformAll(c, a + b) == PerformAll(c, a)
    decreases |a|
  {
    if |a| == 0 {
      assert a + b == b;
    } else {
      assert (a + b)[0] == a[0];
      assert (a + b)[1..] == a[1..] + b;
      match Perform(c, a[0])
      case Failure(e) =>
      case Success(c') => PerformAllAppend(c', a[1..], b);
    }
  }

  /** A single call completes with the connection the setter left, or ends the
      hook with the setter's error and the connection as it was before the call. */
  lemma PerformAllSingle(c: Connection, call: HookCall)
    ensures Perform(c, call).Success? ==> PerformAll(c, [call]) == Completed(Perform(c, call).value)
    ensures Perform(c, call).Failure? ==> PerformAll(c, [call]) == Escaped(c, Perform(c, call).error)
  {
    assert [call][1..] == [];
  }

  function RunHook(c: Connection, h: Hook): (r: HookResult)
    ensures r.Raised? ==> h.end == Throws(r.fault)
    ensures r.Completed? ==> h.end == Returns
  {
    match PerformAll(c, h.calls)
    case Completed(c') => if h.end.Throws? then Raised(c', h.end.fault) else Completed(c')
    case other => other
  }

  /** What a hook may change: the selection, the accepted extensions and the
      response. Everything else about the connection is as before. */
  predicate HookFrame(c: Connection, c': Connection)
  {
    c' == c.(subprotocol := c'.subprotocol, extensions := c'.extensions, response := c'.response)
  }

  /** Whatever a hook does, the selection stays within the client's offers, the
      accepted extensions only grow at the end, and nothing outside the
      negotiation and the response changes. */
  lemma {:induction false} PerformAllKeepsNegotiation(c: Connection, calls: seq<HookCall>)
    requires NegotiationValid(c)
    ensures NegotiationValid(PerformAll(c, calls).conn)
    ensures HookFrame(c, PerformAll(c, calls).conn)
    ensures c.extensions <= PerformAll(c, calls).conn.extensions
    decreases |calls|
  {
    if |calls| > 0 {
      match Perform(c, calls[0])
      case Failure(e) =>
      case Success(c') =>
        assert NegotiationValid(c') && HookFrame(c, c') && c.extensions <= c'.extensions;
        PerformAllKeepsNegotiation(c', calls[1..]);
    }
  }

  /** The negotiation invariant and the hook's frame hold however the hook ends. */
  lemma RunHookKeepsNegotiation(c: Connection, h: Hook)
    requires NegotiationValid(c)
    ensures NegotiationValid(RunHook(c, h).conn)
    ensures HookFrame(c, RunHook(c, h).conn)
    ensures c.extensions <= RunHook(c, h).conn.extensions
  {
    PerformAllKeepsNegotiation(c, h.calls);
  }

  /** A hook on a WebSocket connection that calls set_body never completes: the
      call throws out of it. */
  lemma SetBodyEscapesUpgrade(c: Connection, body: string, rest: seq<HookCall>, end: HookEnd)
    requires c.version != HttpSentinel
    ensures RunHook(c, Hook([ChooseBody(body)] + rest, end)) == Escaped(c, InvalidArgument("set_body called from invalid state"))
  {
    assert ([ChooseBody(body)] + rest)[0] == ChooseBody(body);
  }
}

=== FILE: findings.dfy ===
/** Two defects of handle_write_response as the source writes it, each shown
    on a concrete input, next to the property the corrected step used by
    `Handshake` has. */
module Findings {
  import opened Wrappers
  import opened Ascii
  import opened CInt
  import opened Http
  import opened ServerConnection
  import opened ServerHandshake

  /** The source's test for "this was a WebSocket connection": the version is
      no longer the sentinel. */
  predicate ReportsHandshakeErrorAsWritten(c: Connection)
  {
    c.version != HttpSentinel
  }

  /** handle_write_response with only the first defect repaired (the log line
      no longer reads a missing URI): the error log after a non-101 response
      is still chosen by the version, as written. Fate and state agree with
      the corrected step. */
  function HandleWriteResponseUriGuarded(c: Connection, writeOk: bool): (d: Disposition)
    ensures d.fate == HandleWriteResponse(c, writeOk).fate
    ensures d.conn == HandleWriteResponse(c, writeOk).conn
    ensures writeOk && c.response.status != SwitchingProtocols ==>
              (HandshakeErrorLogged in d.events <==> c.version != HttpSentinel)
  {
    if !writeOk then Disposition(c.(state := Closed), [], AbortedOnWrite)
    else if c.response.status != SwitchingProtocols then
      Disposition(c.(state := Closed),
                  if ReportsHandshakeErrorAsWritten(c) then [HandshakeErrorLogged] else [],
                  ClosedGracefully)
    else
      Disposition(c.(state := Open), [OnOpen, FrameLoopStarted], Opened)
  }

  /** handle_write_response as written: after a successful write,
      log_open_result reads the request URI before the status is looked at;
      past that point the step is the one above. */
  function HandleWriteResponseAsWritten(c: Connection, writeOk: bool): (r: Result<Disposition, Defect>)
    ensures r.Failure? <==> writeOk && c.uri.None?
    ensures r.Failure? ==> r.error == MissingUri
    ensures r.Success? ==> r.value.fate == HandleWriteResponse(c, writeOk).fate
    ensures r.Success? ==> r.value.conn == HandleWriteResponse(c, writeOk).conn
    ensures r.Success? && writeOk && c.response.status != SwitchingProtocols ==>
              (HandshakeErrorLogged in r.value.events <==> c.version != HttpSentinel)
  {
    if writeOk && c.uri.None? then Failure(MissingUri)
    else Success(HandleWriteResponseUriGuarded(c, writeOk))
  }

  /** Finding 1, as written: a request the parser rejects is answered 400, the
      answer is written, and then the URI that was never loaded is read. */
  lemma GarbageRequestReadsMissingUri(subprotocols: seq<string>, extensions: seq<string>, env: Environment)
    ensures var o := HandleReadRequest(NewConnection(subprotocols, extensions), true, None, env);
      && o.Ready? && o.conn.uri.None?
      && AssembleResponse(o.conn, env.processor.responseHeaders).Success?
      && HandleWriteResponseAsWritten(
           o.conn.(response := AssembleResponse(o.conn, env.processor.responseHeaders).value), true)
         == Failure(MissingUri)
  {
  }

  /** Finding 1, as written: every rejected upgrade version (missing, unreadable
      or unsupported) also reaches the missing URI once its 400 is written. */
  lemma RejectedVersionReadsMissingUri(subprotocols: seq<string>, extensions: seq<string>, req: Request, env: Environment)
    requires IsUpgrade(req) && !SupportedUpgrade(req)
    ensures var o := HandleReadRequest(NewConnection(subprotocols, extensions), true, Some(req), env);
      && o.Ready? && o.conn.uri.None? && o.conn.response.status == BadRequest
      && HandleWriteResponseAsWritten(
           o.conn.(response := AssembleResponse(o.conn, env.processor.responseHeaders).value), true)
         == Failure(MissingUri)
  {
  }

  /** Finding 1, corrected: once the request was read and the response
      written, the connection is either closed gracefully or open (unless a
      setter's error escaped the hook), never stuck on a missing URI. */
  lemma WrittenHandshakeAlwaysDisposed(subprotocols: seq<string>, extensions: seq<string>, w: Wire, env: Environment)
    requires FaultsAreErrors(env) && w.readOk && w.writeOk
    ensures var r := Handshake(subprotocols, extensions, w, env);
      r.fate == ClosedGracefully || r.fate == Opened || r.fate.Uncaught?
  {
  }

  /** The upgrade request of finding 2: Upgrade: websocket, Sec-WebSocket-Version: -1. */
  const MinusOneRequest := Request(map["Upgrade" := "websocket", VersionHeader := "-1"], "/")

  /** Finding 2, as written: version "-1" is rejected with 400, but it leaves
      the version equal to the HTTP sentinel. The code as written never gets
      as far as the version test: the missing URI of finding 1 is read first.
      Once that read is guarded, the failed upgrade is reported as a plain
      HTTP exchange, where the corrected step logs it as a handshake error. */
  lemma MinusOneVersionReportedAsPlainHttp(env: Environment)
    ensures var o := HandleReadRequest(NewConnection([], []), true, Some(MinusOneRequest), env);
      && o.Ready? && o.conn.upgradeRequested
      && o.conn.version == HttpSentinel
      && o.conn.response.status == BadRequest
      && AssembleResponse(o.conn, env.processor.responseHeaders).Success?
      && var c := o.conn.(response := AssembleResponse(o.conn, env.processor.responseHeaders).value);
      && HandleWriteResponseAsWritten(c, true) == Failure(MissingUri)
      && HandleWriteResponseUriGuarded(c, true).fate == ClosedGracefully
      && HandshakeErrorLogged !in HandleWriteResponseUriGuarded(c, true).events
      && HandshakeErrorLogged in HandleWriteResponse(c, true).events
  {
    assert MatchesAt("websocket", "websocket", 0);
    ContainsIgnoreCaseIff("websocket", "websocket");
    assert MinusOneRequest.Header("Upgrade") == "websocket";
    assert MinusOneRequest.Header(VersionHeader) == "-1";
    assert Decimal(1) == "1";
    DecideVersionOfNegative(1, "");
    assert ['-'] + Decimal(1) + "" == "-1";
  }

  /** Finding 2, corrected: after a written non-101 response, the handshake
      error is logged exactly when the request asked for an upgrade. */
  lemma HandshakeErrorLoggedIffUpgradeFailed(subprotocols: seq<string>, extensions: seq<string>, w: Wire, env: Environment)
    ensures var r := Handshake(subprotocols, extensions, w, env);
      r.fate == ClosedGracefully ==>
        (HandshakeErrorLogged in r.events <==> w.request.Some? && IsUpgrade(w.request.value))
  {
    var c := NewConnection(subprotocols, extensions);
    var o := HandleReadRequest(c, w.readOk, w.request, env);
    if o.Ready? {
      assert HandshakeErrorLogged !in o.events;
    }
  }
}

=== FILE: handshake.dfy ===
/** The opening handshake of server::connection as a sequence of pure steps:
    handle_read_request classifies the request and negotiates, write_response
    assembles the response, handle_write_response decides what happens once
    the response is on the wire. Network I/O, the processor and the
    application's hooks are inputs. */
module ServerHandshake {
  import opened Wrappers
  import opened Ascii
  import opened CInt
  import opened Http
  import opened ServerConnection

  /** The versions a processor exists for, advertised on rejection. */
  const AdvertisedVersions := "13, 8, 7"
  /** The Server header every response carries. */
  const ServerBanner := "WebSocket++/2011-11-18"
  const VersionHeader := "Sec-WebSocket-Version"
  const ProtocolHeader := "Sec-WebSocket-Protocol"
  const UnsupportedVersion := "Unsupported WebSocket version"
  const UnknownVersion := "Unable to determine connection version"
  const InvalidRequest := "Recieved invalid HTTP Request"

  predicate IsSupportedVersion(v: int)
  {
    v == 7 || v == 8 || v == 13
  }

  /** The request asks for a WebSocket upgrade: its Upgrade header contains
      "websocket" in any letter case, possibly among other tokens. */
  predicate IsUpgrade(req: Request): (b: bool)
    ensures b <==> exists i: nat :: MatchesAt(req.Header("Upgrade"), "websocket", i)
  {
    ContainsIgnoreCaseIff(req.Header("Upgrade"), "websocket");
    ContainsIgnoreCase(req.Header("Upgrade"), "websocket")
  }

  // ---------------------------------------------------------------------------
  // Version selection

  /** Outcome of reading Sec-WebSocket-Version: a processor for a supported
      version, or a 400 with the given message, advertising the supported
      versions or not. */
  datatype VersionDecision =
    | Accept(version: int)
    | Reject(version: int, advertise: bool, message: string)

  /** The version logic of the read handler. An absent header means the legacy
      version 0, rejected with the advertisement; a value atoi reads as 0 is
      rejected without it; 7, 8 and 13 get a processor; every other number is
      rejected with the advertisement. */
  function DecideVersion(header: string): (d: VersionDecision)
    ensures d.version == if header == "" then 0 else Atoi(header)
    ensures d.Accept? <==> IsSupportedVersion(d.version)
    ensures d.Reject? ==> (d.advertise <==> (header == "" || d.version != 0))
    ensures d.Reject? ==> d.message == if d.advertise then UnsupportedVersion else UnknownVersion
  {
    if header == "" then Reject(0, true, UnsupportedVersion)
    else
      var v := Atoi(header);
      if v == 0 then Reject(0, false, UnknownVersion)
      else if IsSupportedVersion(v) then Accept(v)
      else Reject(v, true, UnsupportedVersion)
  }

  /** A decimal version number followed by anything that is not a digit is
      accepted exactly when the number is 7, 8 or 13 ("13abc" is version 13). */
  lemma DecideVersionOfDecimal(n: nat, rest: string)
    requires rest == [] || !IsDigit(rest[0])
    ensures DecideVersion(Decimal(n) + rest).version == n
    ensures DecideVersion(Decimal(n) + rest).Accept? <==> n == 7 || n == 8 || n == 13
    ensures DecideVersion(Decimal(n) + rest).Reject? ==>
              (DecideVersion(Decimal(n) + rest).advertise <==> n != 0)
  {
    AtoiReadsDecimal(n, rest);
  }

  /** A negative version is never accepted and is always advertised against;
      "-1" selects version -1, the value the HTTP sentinel also has. */
  lemma DecideVersionOfNegative(n: nat, rest: string)
    requires n > 0
    requires rest == [] || !IsDigit(rest[0])
    ensures DecideVersion(['-'] + Decimal(n) + rest) ==
              Reject(-(n as int), true, UnsupportedVersion)
  {
    AtoiReadsNegativeDecimal(n, rest);
  }

  /** A value with no number at its front ("abc") is rejected as unreadable, without
      the advertisement. */
  lemma DecideVersionOfText(header: string)
    requires |header| > 0
    requires !(IsSpace(header[0]) || IsDigit(header[0]) || header[0] == '+' || header[0] == '-')
    ensures DecideVersion(header) == Reject(0, false, UnknownVersion)
  {
    AtoiWithoutNumber(header);
  }

  // ---------------------------------------------------------------------------
  // Host header

  /** The Host header split into a host and, when a port was given, the port text. */
  datatype HostPort = HostPort(host: string, port: Option<string>)

  /** Split at the first ':'; without one the whole header is the host. */
  function SplitHost(h: string): (r: HostPort)
    ensures r.port.None? <==> ':' !in h
    ensures r.port.None? ==> r.host == h
    ensures r.port.Some? ==> h == r.host + [':'] + r.port.value && ':' !in r.host
  {
    match Find(h, ':')
    case None => HostPort(h, None)
    case Some(i) =>
      assert h == h[..i] + [':'] + h[i + 1..];
      HostPort(h[..i], Some(h[i + 1..]))
  }

  /** Joining a colon-free host and any port text with ':' splits back into
      the same two parts. */
  lemma SplitHostJoin(host: string, port: string)
    requires ':' !in host
    ensures SplitHost(host + [':'] + port) == HostPort(host, Some(port))
  {
    var h := host + [':'] + port;
    assert h[|host|] == ':';
    assert forall k :: 0 <= k < |host| ==> h[k] == host[k];
    assert h[..|host|] == host;
  }

  /** The split is at the FIRST colon, so a bracketed IPv6 literal is cut
      inside the brackets: "[::1]:80" gives host "[" and port text ":1]:80". */
  lemma SplitHostIPv6Literal()
    ensures SplitHost("[::1]:80") == HostPort("[", Some(":1]:80"))
  {
    SplitHostJoin("[", ":1]:80");
    assert "[" + [':'] + ":1]:80" == "[::1]:80";
  }

  /** What the uri constructor is handed on the HTTP path. */
  datatype UriParts = UriParts(secure: bool, host: string, port: Option<string>, resource: string)

  function HostUriParts(secure: bool, hostHeader: string, target: string): (p: UriParts)
    ensures p.secure == secure && p.resource == target
    ensures p.port.None? ==> p.host == hostHeader
    ensures p.port.Some? ==> hostHeader == p.host + [':'] + p.port.value && ':' !in p.host
  {
    var hp := SplitHost(hostHeader);
    UriParts(secure, hp.host, hp.port, target)
  }

  // ---------------------------------------------------------------------------
  // Collaborators

  /** The processor for the negotiated version: its validate_handshake, the
      origin and URI it reads from the request, and the headers its
      handshake_response adds (the accept key among them). */
  datatype Processor = Processor(
    check: Outcome<Fault>,
    origin: string,
    uri: Result<Uri, Fault>,
    responseHeaders: Headers)

  /** Everything the handshake consults that this model does not compute:
      whether the endpoint is secure, the processor, the validate and http
      hooks, the uri constructor used on the HTTP path (None for a
      uri_exception), and `defaultReason` and `defaultBody`, the m_error_msg
      and m_body of an http::exception constructed from only a log text and a
      status code. The exception class is not part of this model, so both are
      inputs rather than constants. */
  datatype Environment = Environment(
    secure: bool,
    processor: Processor,
    validate: Hook,
    http: Hook,
    makeUri: UriParts -> Option<Uri>,
    defaultReason: string,
    defaultBody: string)

  /** The http::exception the read handler throws itself: a log text and 400,
      with the constructor's default reason phrase and body. */
  function HandlerError(what: string, env: Environment): Fault
  {
    HttpError(BadRequest, what, env.defaultReason, env.defaultBody)
  }

  /** No collaborator throws a fault carrying 101: every error a collaborator
      raises is an error status. */
  predicate FaultsAreErrors(env: Environment)
  {
    && (env.processor.check.Fail? ==> env.processor.check.error.Status() != SwitchingProtocols)
    && (env.processor.uri.Failure? ==> env.processor.uri.error.Status() != SwitchingProtocols)
    && (env.validate.end.Throws? ==> env.validate.end.fault.Status() != SwitchingProtocols)
    && (env.http.end.Throws? ==> env.http.end.fault.Status() != SwitchingProtocols)
  }

  /** Observable steps of the handshake, in order. */
  datatype Event =
    | ProcessorCreated
    | ValidateHookRan
    | HttpHookRan
    | HandshakeErrorLogged
    | ErrorLogged(fault: Fault)   // a catch clause of the read handler logged this fault's what()
    | OnOpen
    | FrameLoopStarted

  // ---------------------------------------------------------------------------
  // handle_read_request

  /** The body of the read handler's try block: it ends normally, throws a
      fault the handler catches, or lets a setter's error escape. */
  datatype Attempt =
    | Done(conn: Connection, events: seq<Event>)
    | Threw(conn: Connection, events: seq<Event>, fault: Fault)
    | Escape(conn: Connection, events: seq<Event>, error: UsageError)

  /** The WebSocket branch: version, processor, validation, URI, validate hook, 101. */
  function UpgradePath(c: Connection, req: Request, env: Environment): (a: Attempt)
    requires NegotiationValid(c) && !c.hasProcessor
    ensures NegotiationValid(a.conn)
    ensures a.conn.upgradeRequested == c.upgradeRequested && a.conn.state == c.state
    ensures a.conn.version == DecideVersion(req.Header(VersionHeader)).version
    ensures a.conn.hasProcessor <==> DecideVersion(req.Header(VersionHeader)).Accept?
    ensures a.Done? ==>
              a.conn.response.status == SwitchingProtocols && a.conn.uri.Some? &&
              a.events == [ProcessorCreated, ValidateHookRan]
    ensures a.Threw? && FaultsAreErrors(env) ==> a.fault.Status() != SwitchingProtocols
  {
    match DecideVersion(req.Header(VersionHeader))
    case Reject(v, advertise, msg) =>
      var resp := if advertise then AddHeader(c.response, VersionHeader, AdvertisedVersions) else c.response;
      Threw(c.(version := v, response := resp), [], HandlerError(msg, env))
    case Accept(v) =>
      var c1 := c.(version := v, hasProcessor := true);
      match env.processor.check
      case Fail(f) => Threw(c1, [ProcessorCreated], f)
      case Pass =>
        var c2 := c1.(origin := env.processor.origin);
        match env.processor.uri
        case Failure(f) => Threw(c2, [ProcessorCreated], f)
        case Success(u) =>
          var c3 := c2.(uri := Some(u));
          var ev := [ProcessorCreated, ValidateHookRan];
          RunHookKeepsNegotiation(c3, env.validate);
          match RunHook(c3, env.validate)
          case Completed(c4) => Done(c4.(response := c4.response.(status := SwitchingProtocols, message := None)), ev)
          case Raised(c4, f) => Threw(c4, ev, f)
          case Escaped(c4, e) => Escape(c4, ev, e)
  }

  /** The HTTP branch: http hook, Origin, URI from the Host header, 200. */
  function PlainPath(c: Connection, req: Request, env: Environment): (a: Attempt)
    requires NegotiationValid(c)
    ensures NegotiationValid(a.conn)
    ensures a.conn.upgradeRequested == c.upgradeRequested && a.conn.state == c.state
    ensures a.conn.version == c.version && a.conn.hasProcessor == c.hasProcessor
    ensures a.events == [HttpHookRan]
    ensures a.Done? ==> a.conn.response.status == OkStatus && a.conn.uri.Some?
    ensures a.Threw? && FaultsAreErrors(env) ==> a.fault.Status() != SwitchingProtocols
  {
    var ev := [HttpHookRan];
    RunHookKeepsNegotiation(c, env.http);
    match RunHook(c, env.http)
    case Raised(c1, f) => Threw(c1, ev, f)
    case Escaped(c1, e) => Escape(c1, ev, e)
    case Completed(c1) =>
      var c2 := c1.(origin := req.Header("Origin"));
      match env.makeUri(HostUriParts(env.secure, req.Header("Host"), req.target))
      case None => Threw(c2, ev, UriError)
      case Some(u) => Done(c2.(uri := Some(u), response := c2.response.(status := OkStatus, message := None)), ev)
  }

  /** What the read handler leaves: the read failed and the connection was
      aborted; a setter's error escaped and nothing is written; or the response
      status is decided and write_response follows. */
  datatype ReadOutcome =
    | ReadFailed(conn: Connection)
    | Unhandled(conn: Connection, events: seq<Event>, error: UsageError)
    | Ready(conn: Connection, events: seq<Event>)

  /** A connection as the constructor leaves it, before its request is read. */
  predicate Fresh(c: Connection)
  {
    c == NewConnection(c.requestedSubprotocols, c.requestedExtensions)
  }

  /** The request asks for an upgrade to a version a processor exists for. */
  predicate SupportedUpgrade(req: Request)
  {
    IsUpgrade(req) && DecideVersion(req.Header(VersionHeader)).Accept?
  }

  /** handle_read_request. `parsed` is the parser's verdict (None when the bytes
      are not an HTTP request). */
  function HandleReadRequest(c: Connection, readOk: bool, parsed: Option<Request>, env: Environment): (r: ReadOutcome)
    requires Fresh(c)
    ensures r.ReadFailed? <==> !readOk
    ensures r.ReadFailed? ==> r.conn.state == Closed
    ensures !r.ReadFailed? ==> r.conn.state == Connecting
    ensures r.conn.upgradeRequested <==> readOk && parsed.Some? && IsUpgrade(parsed.value)
    ensures r.conn.hasProcessor <==> readOk && parsed.Some? && SupportedUpgrade(parsed.value)
    ensures !r.conn.upgradeRequested ==> r.conn.version == HttpSentinel
    ensures r.conn.hasProcessor ==> IsSupportedVersion(r.conn.version)
    ensures NegotiationValid(r.conn)
    ensures r.Ready? && parsed.None? ==>
              && r.conn.response.status == BadRequest
              && r.conn.response.message == Some(env.defaultReason)
              && r.conn.response.body == env.defaultBody
              && r.events == [ErrorLogged(HandlerError(InvalidRequest, env))]
    ensures r.Ready? && FaultsAreErrors(env) && r.conn.response.status == SwitchingProtocols ==>
              r.conn.hasProcessor && r.conn.uri.Some? && r.events == [ProcessorCreated, ValidateHookRan]
  {
    if !readOk then ReadFailed(c.(state := Closed))
    else
      var a :=
        match parsed
        case None => Threw(c, [], HandlerError(InvalidRequest, env))
        case Some(req) =>
          if IsUpgrade(req) then UpgradePath(c.(upgradeRequested := true), req, env)
          else PlainPath(c, req, env);
      match a
      case Done(c1, ev) => Ready(c1, ev)
      case Threw(c1, ev, f) => Ready(c1.(response := ApplyFault(c1.response, f)), ev + [ErrorLogged(f)])
      case Escape(c1, ev, e) => Unhandled(c1, ev, e)
  }

  // ---------------------------------------------------------------------------
  // write_response

  /** Undefined behaviour the model makes visible instead of executing. */
  datatype Defect =
    | MissingProcessor   // a 101 response with no processor to add its headers
    | MissingUri         // the URI read while logging was never set

  /** write_response: HTTP/1.1; for a 101, the processor's headers and the
      selected subprotocol; the Server header on every response. */
  function AssembleResponse(c: Connection, handshakeHeaders: Headers): (r: Result<Response, Defect>)
    ensures r.Failure? <==> c.response.status == SwitchingProtocols && !c.hasProcessor
    ensures r.Success? ==> r.value.protocol == "HTTP/1.1"
    ensures r.Success? ==> r.value.status == c.response.status && r.value.message == c.response.message
    ensures r.Success? ==> r.value.body == c.response.body
    ensures r.Success? ==> ServerHeader(r.value) == ServerBanner
    ensures r.Success? && c.response.status == SwitchingProtocols && c.subprotocol != "" ==>
              ProtocolHeader in r.value.headers && r.value.headers[ProtocolHeader] == c.subprotocol
    ensures r.Success? && c.response.status == SwitchingProtocols ==>
              forall k :: k in handshakeHeaders && k != ProtocolHeader && k != "Server" ==>
                k in r.value.headers && r.value.headers[k] == handshakeHeaders[k]
    ensures r.Success? && c.response.status != SwitchingProtocols ==>
              r.value.headers == c.response.headers[ "Server" := ServerBanner]
    ensures r.Success? && c.subprotocol == "" ==>
              forall k :: k in r.value.headers && k == ProtocolHeader ==>
                (k in c.response.headers || k in handshakeHeaders)
  {
    var r0 := c.response.(protocol := "HTTP/1.1");
    if r0.status == SwitchingProtocols then
      if !c.hasProcessor then Failure(MissingProcessor)
      else
        var r1 := r0.(headers := r0.headers + handshakeHeaders);
        var r2 := if c.subprotocol != "" then ReplaceHeader(r1, ProtocolHeader, c.subprotocol) else r1;
        Success(ReplaceHeader(r2, "Server", ServerBanner))
    else
      Success(ReplaceHeader(r0, "Server", ServerBanner))
  }

  function ServerHeader(r: Response): string
  {
    if "Server" in r.headers then r.headers["Server"] else ""
  }

  // ---------------------------------------------------------------------------
  // handle_write_response

  /** How the handshake ended for the connection. */
  datatype Fate =
    | AbortedOnRead           // terminate(false) after a failed read
    | AbortedOnWrite          // terminate(false) after a failed write
    | Uncaught(error: UsageError)  // a setter's error left the read handler
    | Undefined(defect: Defect)    // the source dereferences a null pointer here
    | ClosedGracefully        // terminate(true) after a non-101 response
    | Opened                  // OPEN, on_open called, frame loop started

  datatype Disposition = Disposition(conn: Connection, events: seq<Event>, fate: Fate)

  /** A non-101 outcome is logged as a failed handshake exactly when the client
      asked for an upgrade. */
  predicate ReportsHandshakeError(c: Connection)
  {
    c.upgradeRequested
  }

  /** handle_write_response, with the two defects of the source corrected (see
      README, Findings): the missing URI is not read, and a failed upgrade is
      recognised by the Upgrade header rather than by the version. A failed write
      aborts; any status but 101 closes gracefully; 101 opens the connection
      once and starts the frame loop. */
  function HandleWriteResponse(c: Connection, writeOk: bool): (d: Disposition)
    ensures d.fate == Opened <==> writeOk && c.response.status == SwitchingProtocols
    ensures d.conn.state == (if d.fate == Opened then Open else Closed)
    ensures d.conn == c.(state := d.conn.state)
    ensures !writeOk ==> d.fate == AbortedOnWrite && d.events == []
    ensures writeOk && c.response.status != SwitchingProtocols ==>
              d.fate == ClosedGracefully &&
              d.events == (if c.upgradeRequested then [HandshakeErrorLogged] else [])
    ensures d.fate == Opened ==> d.events == [OnOpen, FrameLoopStarted]
  {
    if !writeOk then Disposition(c.(state := Closed), [], AbortedOnWrite)
    else if c.response.status != SwitchingProtocols then
      Disposition(c.(state := Closed), if ReportsHandshakeError(c) then [HandshakeErrorLogged] else [], ClosedGracefully)
    else
      Disposition(c.(state := Open), [OnOpen, FrameLoopStarted], Opened)
  }

  // ---------------------------------------------------------------------------
  // The whole handshake

  /** The network's part: whether the read of the request succeeded, what the
      parser made of the bytes, whether the response write succeeded. */
  datatype Wire = Wire(readOk: bool, request: Option<Request>, writeOk: bool)

  /** Where a handshake ends: the connection, the events in order, the response
      handed to the write (if one was assembled) and the fate. */
  datatype Run = Run(conn: Connection, events: seq<Event>, response: Option<Response>, fate: Fate)

  /** write_response and handle_write_response for a read handler that left a
      response to write. */
  function WriteAndDispose(c: Connection, ev: seq<Event>, handshakeHeaders: Headers, writeOk: bool): (r: Run)
    requires c.state == Connecting && OnOpen !in ev
    ensures r.conn.state == Open <==> r.fate == Opened
    ensures r.conn.state == Connecting <==> r.fate.Undefined?
    ensures r.fate == Opened ==>
              r.response.Some? && r.response.value.status == SwitchingProtocols && c.response.status == SwitchingProtocols
    ensures r.conn.hasProcessor == c.hasProcessor && r.conn.version == c.version
    ensures r.conn.upgradeRequested == c.upgradeRequested
    ensures r.fate == Opened ==> c.hasProcessor
    ensures r.response.Some? ==> ServerHeader(r.response.value) == ServerBanner
    ensures NegotiationValid(c) ==> NegotiationValid(r.conn)
    ensures multiset(r.events)[OnOpen] == if r.fate == Opened then 1 else 0
  {
    match AssembleResponse(c, handshakeHeaders)
    case Failure(defect) => Run(c, ev, None, Undefined(defect))
    case Success(resp) =>
      var d := HandleWriteResponse(c.(response := resp), writeOk);
      Run(d.conn, ev + d.events, Some(resp), d.fate)
  }

  /** One connection from construction to the end of its handshake. */
  function Handshake(subprotocols: seq<string>, extensions: seq<string>, w: Wire, env: Environment): (r: Run)
    ensures r.conn.state == Open <==> r.fate == Opened
    ensures r.conn.state == Connecting <==> r.fate.Uncaught? || r.fate.Undefined?
    ensures r.fate == Opened ==>
              r.response.Some? && r.response.value.status == SwitchingProtocols &&
              r.conn.hasProcessor && IsSupportedVersion(r.conn.version) && r.conn.upgradeRequested
    ensures r.conn.hasProcessor <==> w.readOk && w.request.Some? && SupportedUpgrade(w.request.value)
    ensures r.response.Some? ==> ServerHeader(r.response.value) == ServerBanner
    ensures NegotiationValid(r.conn)
    ensures multiset(r.events)[OnOpen] == if r.fate == Opened then 1 else 0
  {
    var c := NewConnection(subprotocols, extensions);
    match HandleReadRequest(c, w.readOk, w.request, env)
    case ReadFailed(c1) => Run(c1, [], None, AbortedOnRead)
    case Unhandled(c1, ev, e) => Run(c1, ev, None, Uncaught(e))
    case Ready(c1, ev) => WriteAndDispose(c1, ev, env.processor.responseHeaders, w.writeOk)
  }
}

=== FILE: http.dfy ===
/** The parts of the HTTP message objects the handshake touches. The parser and
    serializer themselves are collaborators: a parsed request arrives as a header
    map and a request target, and a response is the status, headers and body the
    handshake sets before it is serialized. */
module Http {
  import opened Wrappers

  const SwitchingProtocols: int := 101
  const OkStatus: int := 200
  const BadRequest: int := 400

  type Headers = map<string, string>

  /** A parsed request: its headers and the request target (the resource). */
  datatype Request = Request(headers: Headers, target: string)
  {
    /** The value of a header, or "" when it is absent, as the parser reports
        it: an absent header and one sent empty read alike. */
    function Header(name: string): (v: string)
      ensures name in headers ==> v == headers[name]
      ensures name !in headers ==> v == ""
      ensures v == "" <==> name !in headers || headers[name] == ""
    {
      if name in headers then headers[name] else ""
    }
  }

  /** A response under construction. `message` is None while the status carries
      its default reason phrase. */
  datatype Response = Response(
    protocol: string,
    status: int,
    message: Option<string>,
    headers: Headers,
    body: string)

  /** The response a fresh connection starts with: no status set, no headers, no body. */
  const EmptyResponse := Response("", 0, None, map[], "")

  /** add_header: a new header is stored as given; a value for a header that is
      already present is appended to it after ", ". */
  function AddHeader(r: Response, name: string, value: string): (r': Response)
    ensures r'.headers.Keys == r.headers.Keys + {name}
    ensures r'.headers[name] == if name in r.headers then r.headers[name] + ", " + value else value
    ensures forall k :: k in r.headers && k != name ==> r'.headers[k] == r.headers[k]
    ensures r' == r.(headers := r'.headers)
  {
    r.(headers := r.headers[name := if name in r.headers then r.headers[name] + ", " + value else value])
  }

  /** replace_header: the header ends up with exactly the given value. */
  function ReplaceHeader(r: Response, name: string, value: string): (r': Response)
    ensures r'.headers.Keys == r.headers.Keys + {name}
    ensures r'.headers[name] == value
    ensures forall k :: k in r.headers && k != name ==> r'.headers[k] == r.headers[k]
    ensures r' == r.(headers := r'.headers)
  {
    r.(headers := r.headers[name := value])
  }

  /** remove_header: the header is gone, the others stay. */
  function RemoveHeader(r: Response, name: string): (r': Response)
    ensures r'.headers.Keys == r.headers.Keys - {name}
    ensures forall k :: k in r'.headers ==> r'.headers[k] == r.headers[k]
    ensures r' == r.(headers := r'.headers)
  {
    r.(headers := r.headers - {name})
  }

  /** What a throwing collaborator carries: an http::exception or a
      uri_exception from building the request URI. An http::exception holds
      two texts: `what` is the text its what() returns, which the read handler
      logs, and `message` is its m_error_msg, which becomes the reason phrase
      of the response. */
  datatype Fault =
    | HttpError(status: int, what: string, message: string, body: string)
    | UriError
  {
    /** The status the handshake answers with when this fault is caught. */
    function Status(): int
    {
      match this
      case HttpError(s, _, _, _) => s
      case UriError => BadRequest
    }
  }

  /** The two catch clauses of the read handler: an http::exception sets status,
      reason phrase and body from its payload; a uri_exception sets 400 and
      leaves the body. Headers added before the throw stay in the response. */
  function ApplyFault(r: Response, f: Fault): (r': Response)
    ensures r'.status == f.Status()
    ensures r'.headers == r.headers && r'.protocol == r.protocol
    ensures f.UriError? ==> r'.body == r.body && r'.message.None?
    ensures f.HttpError? ==> r'.body == f.body && r'.message == Some(f.message)
  {
    match f
    case HttpError(s, _, m, b) => r.(status := s, message := Some(m), body := b)
    case UriError => r.(status := BadRequest, message := None)
  }
}

=== FILE: properties.dfy ===
/** End-to-end properties of the handshake: what a whole run does for each
    kind of request. */
module HandshakeProperties {
  import opened Wrappers
  import opened Ascii
  import opened CInt
  import opened Http
  import opened ServerConnection
  import opened ServerHandshake

  /** The connection opens only after the full negotiation succeeded: the
      request asked for an upgrade to a supported version, the processor
      accepted it and produced a URI, and the validate hook returned. It then
      opens exactly once, after the processor and the hook ran. */
  lemma OpenOnlyAfterNegotiation(subprotocols: seq<string>, extensions: seq<string>, w: Wire, env: Environment)
    requires FaultsAreErrors(env)
    ensures var r := Handshake(subprotocols, extensions, w, env);
      r.fate == Opened ==>
        && w.readOk && w.writeOk && w.request.Some?
        && SupportedUpgrade(w.request.value)
        && env.processor.check.Pass? && env.processor.uri.Success?
        && env.validate.end == Returns
        && r.events == [ProcessorCreated, ValidateHookRan, OnOpen, FrameLoopStarted]
  {
  }

  /** A request without a WebSocket Upgrade never opens and never gets a
      processor: the http hook runs once, the version stays the sentinel and
      the validate hook is not called. */
  lemma PlainRequestNeverOpens(subprotocols: seq<string>, extensions: seq<string>, req: Request, writeOk: bool, env: Environment)
    requires !IsUpgrade(req)
    ensures var r := Handshake(subprotocols, extensions, Wire(true, Some(req), writeOk), env);
      && r.fate != Opened
      && r.conn.version == HttpSentinel && !r.conn.hasProcessor
      && r.events[..1] == [HttpHookRan]
      && multiset(r.events)[HttpHookRan] == 1
      && ValidateHookRan !in r.events
      && HandshakeErrorLogged !in r.events
  {
  }

  /** A plain request whose hook returns without a refused call and whose Host
      header yields a URI gets 200, carries the URI built from the Host header
      and the request target, and is closed gracefully once written. */
  lemma PlainRequestServed(subprotocols: seq<string>, extensions: seq<string>, req: Request, env: Environment)
    requires !IsUpgrade(req)
    requires env.http.end == Returns
    requires PerformAll(NewConnection(subprotocols, extensions), env.http.calls).Completed?
    requires env.makeUri(HostUriParts(env.secure, req.Header("Host"), req.target)).Some?
    ensures var r := Handshake(subprotocols, extensions, Wire(true, Some(req), true), env);
      && r.response.Some? && r.response.value.status == OkStatus
      && r.conn.uri == env.makeUri(HostUriParts(env.secure, req.Header("Host"), req.target))
      && r.conn.origin == req.Header("Origin")
      && r.events == [HttpHookRan]
      && r.fate == ClosedGracefully && r.conn.state == Closed
  {
  }

  /** A request the parser rejects is answered 400 without running either hook,
      and closed gracefully once written. The handler throws
      http::exception("Recieved invalid HTTP Request", 400): that text is what
      it logs, and the reason phrase sent is the exception's default one. */
  lemma GarbageRequestRejected(subprotocols: seq<string>, extensions: seq<string>, env: Environment)
    ensures var r := Handshake(subprotocols, extensions, Wire(true, None, true), env);
      && r.response.Some? && r.response.value.status == BadRequest
      && r.response.value.message == Some(env.defaultReason)
      && r.response.value.body == env.defaultBody
      && r.events == [ErrorLogged(HttpError(BadRequest, InvalidRequest, env.defaultReason, env.defaultBody))]
      && r.fate == ClosedGracefully && r.conn.state == Closed
  {
  }

  /** An upgrade without Sec-WebSocket-Version is taken as version 0 and
      rejected with 400 and the list of supported versions; it never opens. */
  lemma MissingVersionRejected(subprotocols: seq<string>, extensions: seq<string>, req: Request, writeOk: bool, env: Environment)
    requires IsUpgrade(req) && req.Header(VersionHeader) == ""
    ensures var r := Handshake(subprotocols, extensions, Wire(true, Some(req), writeOk), env);
      && r.conn.version == 0 && !r.conn.hasProcessor
      && r.response.Some? && r.response.value.status == BadRequest
      && r.response.value.message == Some(env.defaultReason)
      && r.response.value.body == env.defaultBody
      && VersionHeader in r.response.value.headers
      && r.response.value.headers[VersionHeader] == AdvertisedVersions
      && r.fate != Opened
      && r.events == [ErrorLogged(HandlerError(UnsupportedVersion, env))] +
                     (if writeOk then [HandshakeErrorLogged] else [])
  {
  }

  /** A version header atoi reads as 0 ("abc", "0") is rejected with 400 and
      WITHOUT the list of supported versions. The handler throws
      http::exception("Unable to determine connection version", 400): that
      text is what it logs, and the reason phrase sent is the exception's
      default one. */
  lemma UnreadableVersionRejected(subprotocols: seq<string>, extensions: seq<string>, req: Request, writeOk: bool, env: Environment)
    requires IsUpgrade(req) && req.Header(VersionHeader) != "" && Atoi(req.Header(VersionHeader)) == 0
    ensures var r := Handshake(subprotocols, extensions, Wire(true, Some(req), writeOk), env);
      && r.conn.version == 0 && !r.conn.hasProcessor
      && r.response.Some? && r.response.value.status == BadRequest
      && r.response.value.message == Some(env.defaultReason)
      && r.response.value.body == env.defaultBody
      && r.events[0] == ErrorLogged(HttpError(BadRequest, UnknownVersion, env.defaultReason, env.defaultBody))
      && VersionHeader !in r.response.value.headers
      && r.fate != Opened
  {
  }

  /** Any other version outside 7, 8 and 13 ("99", negatives) is rejected with
      400 and the list of supported versions, and no processor is created. */
  lemma UnsupportedVersionRejected(subprotocols: seq<string>, extensions: seq<string>, req: Request, writeOk: bool, env: Environment)
    requires IsUpgrade(req) && req.Header(VersionHeader) != ""
    requires Atoi(req.Header(VersionHeader)) != 0 && !IsSupportedVersion(Atoi(req.Header(VersionHeader)))
    ensures var r := Handshake(subprotocols, extensions, Wire(true, Some(req), writeOk), env);
      && r.conn.version == Atoi(req.Header(VersionHeader)) && !r.conn.hasProcessor
      && r.response.Some? && r.response.value.status == BadRequest
      && r.response.value.message == Some(env.defaultReason)
      && r.response.value.body == env.defaultBody
      && r.events[0] == ErrorLogged(HttpError(BadRequest, UnsupportedVersion, env.defaultReason, env.defaultBody))
      && VersionHeader in r.response.value.headers
      && r.response.value.headers[VersionHeader] == AdvertisedVersions
      && ProcessorCreated !in r.events
      && r.fate != Opened
  {
  }

  /** For 7, 8 and 13 a processor is created before anything else happens and
      the handshake goes on to the processor's validation: a failed validation
      answers with the status the processor chose. */
  lemma SupportedVersionValidated(subprotocols: seq<string>, extensions: seq<string>, req: Request, writeOk: bool, env: Environment)
    requires IsUpgrade(req) && req.Header(VersionHeader) != ""
    requires IsSupportedVersion(Atoi(req.Header(VersionHeader)))
    ensures var r := Handshake(subprotocols, extensions, Wire(true, Some(req), writeOk), env);
      && r.conn.hasProcessor && r.conn.version == Atoi(req.Header(VersionHeader))
      && |r.events| > 0 && r.events[0] == ProcessorCreated
      && (env.processor.check.Fail? ==>
            r.response.Some? && r.response.value.status == env.processor.check.error.Status())
  {
    var v := Atoi(req.Header(VersionHeader));
    assert DecideVersion(req.Header(VersionHeader)) == Accept(v);
    var c := NewConnection(subprotocols, extensions);
    var a := UpgradePath(c.(upgradeRequested := true), req, env);
    assert a.events[0] == ProcessorCreated;
    var o := HandleReadRequest(c, true, Some(req), env);
    assert o.Ready? || o.Unhandled?;
    assert o.events[0] == ProcessorCreated;
  }

  /** The read handler's part of an upgrade the validate hook rejects: the
      hook's fault is caught, so the response carries its status and payload
      and the fault is logged after both steps. */
  lemma ValidateRejectionRead(subprotocols: seq<string>, extensions: seq<string>, req: Request, env: Environment)
    requires IsUpgrade(req) && req.Header(VersionHeader) != ""
    requires IsSupportedVersion(Atoi(req.Header(VersionHeader)))
    requires env.processor.check.Pass? && env.processor.uri.Success?
    requires env.validate.end.Throws?
    requires PerformAll(NewConnection(subprotocols, extensions).(upgradeRequested := true,
               version := Atoi(req.Header(VersionHeader)),
               hasProcessor := true, origin := env.processor.origin, uri := Some(env.processor.uri.value)),
               env.validate.calls).Completed?
    ensures var o := HandleReadRequest(NewConnection(subprotocols, extensions), true, Some(req), env);
      && o.Ready? && o.events == [ProcessorCreated, ValidateHookRan, ErrorLogged(env.validate.end.fault)]
      && o.conn.response == ApplyFault(o.conn.response, env.validate.end.fault)
      && o.conn.response.status == env.validate.end.fault.Status()
      && o.conn.hasProcessor && o.conn.state == Connecting && o.conn.upgradeRequested
  {
    var v := Atoi(req.Header(VersionHeader));
    assert DecideVersion(req.Header(VersionHeader)) == Accept(v);
    var c := NewConnection(subprotocols, extensions);
    var c3 := c.(upgradeRequested := true, version := v, hasProcessor := true,
                 origin := env.processor.origin, uri := Some(env.processor.uri.value));
    var f := env.validate.end.fault;
    var c4 := RunHook(c3, env.validate).conn;
    assert RunHook(c3, env.validate) == Raised(c4, f);
    RunHookKeepsNegotiation(c3, env.validate);
    assert UpgradePath(c.(upgradeRequested := true), req, env) == Threw(c4, [ProcessorCreated, ValidateHookRan], f);
  }

  /** When the application's validate hook rejects an otherwise acceptable
      upgrade by throwing, the client is answered with the hook's status, the
      fault is logged, and the connection opens only if that status is 101. */
  lemma ValidateRejectionAnswered(subprotocols: seq<string>, extensions: seq<string>, req: Request, env: Environment)
    requires IsUpgrade(req) && req.Header(VersionHeader) != ""
    requires IsSupportedVersion(Atoi(req.Header(VersionHeader)))
    requires env.processor.check.Pass? && env.processor.uri.Success?
    requires env.validate.end.Throws?
    requires PerformAll(NewConnection(subprotocols, extensions).(upgradeRequested := true,
               version := Atoi(req.Header(VersionHeader)),
               hasProcessor := true, origin := env.processor.origin, uri := Some(env.processor.uri.value)),
               env.validate.calls).Completed?
    ensures var r := Handshake(subprotocols, extensions, Wire(true, Some(req), true), env);
      && r.response.Some? && r.response.value.status == env.validate.end.fault.Status()
      && (env.validate.end.fault.HttpError? ==>
            r.response.value.message == Some(env.validate.end.fault.message) &&
            r.response.value.body == env.validate.end.fault.body)
      && |r.events| >= 3
      && r.events[..3] == [ProcessorCreated, ValidateHookRan, ErrorLogged(env.validate.end.fault)]
      && (r.fate == Opened <==> env.validate.end.fault.Status() == SwitchingProtocols)
      && (r.fate != Opened ==> r.fate == ClosedGracefully && HandshakeErrorLogged in r.events)
  {
    ValidateRejectionRead(subprotocols, extensions, req, env);
    var f := env.validate.end.fault;
    var o := HandleReadRequest(NewConnection(subprotocols, extensions), true, Some(req), env);
    assert OnOpen !in o.events;
    UpgradeAnswerDisposed(o.conn, o.events, env.processor.responseHeaders);
    var r := WriteAndDispose(o.conn, o.events, env.processor.responseHeaders, true);
    assert r.response.value.status == f.Status();
    assert f.HttpError? ==> o.conn.response.message == Some(f.message) && o.conn.response.body == f.body;
    assert |o.events| == 3 && r.events[..3] == o.events;
    assert Handshake(subprotocols, extensions, Wire(true, Some(req), true), env) == r;
  }

  /** Writing the answer to an upgrade request that has its processor: the
      response keeps the status, reason phrase and body the read handler
      decided; only 101 opens, and any other status closes gracefully after
      the handshake error is logged. */
  lemma UpgradeAnswerDisposed(c: Connection, ev: seq<Event>, handshakeHeaders: Headers)
    requires c.state == Connecting && OnOpen !in ev
    requires c.hasProcessor && c.upgradeRequested
    ensures var r := WriteAndDispose(c, ev, handshakeHeaders, true);
      && r.response.Some?
      && r.response.value.status == c.response.status
      && r.response.value.message == c.response.message
      && r.response.value.body == c.response.body
      && (r.fate == Opened <==> c.response.status == SwitchingProtocols)
      && (r.fate != Opened ==> r.fate == ClosedGracefully && r.events == ev + [HandshakeErrorLogged])
      && (r.fate == Opened ==> r.events == ev + [OnOpen, FrameLoopStarted])
  {
    var a := AssembleResponse(c, handshakeHeaders);
    assert a.Success?;
    var d := HandleWriteResponse(c.(response := a.value), true);
    assert WriteAndDispose(c, ev, handshakeHeaders, true) == Run(d.conn, ev + d.events, Some(a.value), d.fate);
  }

  /** The read handler's part of a successful upgrade: 101 decided, processor
      created, URI and origin from the processor, both steps logged. */
  lemma SuccessfulUpgradeRead(subprotocols: seq<string>, extensions: seq<string>, req: Request, env: Environment)
    requires IsUpgrade(req) && req.Header(VersionHeader) == "13"
    requires env.processor.check.Pass? && env.processor.uri.Success?
    requires env.validate.end == Returns
    requires PerformAll(NewConnection(subprotocols, extensions).(upgradeRequested := true, version := 13,
               hasProcessor := true, origin := env.processor.origin, uri := Some(env.processor.uri.value)),
               env.validate.calls).Completed?
    ensures var o := HandleReadRequest(NewConnection(subprotocols, extensions), true, Some(req), env);
      && o.Ready? && o.events == [ProcessorCreated, ValidateHookRan]
      && o.conn.response.status == SwitchingProtocols && o.conn.hasProcessor && o.conn.state == Connecting
      && o.conn.uri == Some(env.processor.uri.value) && o.conn.origin == env.processor.origin
  {
    assert Decimal(13) == "13";
    AtoiReadsDecimal(13, "");
    assert "13" + "" == "13";
    assert DecideVersion(req.Header(VersionHeader)) == Accept(13);
    var c := NewConnection(subprotocols, extensions);
    var c3 := c.(upgradeRequested := true, version := 13, hasProcessor := true,
                 origin := env.processor.origin, uri := Some(env.processor.uri.value));
    var c4 := RunHook(c3, env.validate).conn;
    assert RunHook(c3, env.validate) == Completed(c4);
    RunHookKeepsNegotiation(c3, env.validate);
    var c5 := c4.(response := c4.response.(status := SwitchingProtocols, message := None));
    assert UpgradePath(c.(upgradeRequested := true), req, env) == Done(c5, [ProcessorCreated, ValidateHookRan]);
  }

  /** A well-formed upgrade to version 13 that the processor and the validate
      hook accept is answered 101 with the processor's headers, the selected
      subprotocol and the Server header; the connection is OPEN and on_open
      ran exactly once. */
  lemma SuccessfulUpgradeOpens(subprotocols: seq<string>, extensions: seq<string>, req: Request, env: Environment)
    requires IsUpgrade(req) && req.Header(VersionHeader) == "13"
    requires env.processor.check.Pass? && env.processor.uri.Success?
    requires env.validate.end == Returns
    requires PerformAll(NewConnection(subprotocols, extensions).(upgradeRequested := true, version := 13,
               hasProcessor := true, origin := env.processor.origin, uri := Some(env.processor.uri.value)),
               env.validate.calls).Completed?
    ensures var r := Handshake(subprotocols, extensions, Wire(true, Some(req), true), env);
      && r.response.Some? && r.response.value.status == SwitchingProtocols
      && r.conn.state == Open && r.fate == Opened
      && r.events == [ProcessorCreated, ValidateHookRan, OnOpen, FrameLoopStarted]
      && r.conn.uri == Some(env.processor.uri.value) && r.conn.origin == env.processor.origin
      && (forall k :: k in env.processor.responseHeaders && k != ProtocolHeader && k != "Server" ==>
            k in r.response.value.headers && r.response.value.headers[k] == env.processor.responseHeaders[k])
      && (r.conn.subprotocol != "" ==> r.response.value.headers[ProtocolHeader] == r.conn.subprotocol)
  {
    SuccessfulUpgradeRead(subprotocols, extensions, req, env);
    var o := HandleReadRequest(NewConnection(subprotocols, extensions), true, Some(req), env);
    var a := AssembleResponse(o.conn, env.processor.responseHeaders);
    assert a.Success?;
    var d := HandleWriteResponse(o.conn.(response := a.value), true);
    assert Handshake(subprotocols, extensions, Wire(true, Some(req), true), env) ==
           Run(d.conn, o.events + d.events, Some(a.value), d.fate);
  }

  /** Without FaultsAreErrors: an http hook on a plain request that throws a
      fault carrying 101 puts 101 on a response that has no processor, the
      null dereference write_response would make. */
  lemma PlainHook101Undefined(subprotocols: seq<string>, extensions: seq<string>, req: Request, env: Environment)
    requires !IsUpgrade(req)
    requires env.http.end.Throws? && env.http.end.fault.Status() == SwitchingProtocols
    requires PerformAll(NewConnection(subprotocols, extensions), env.http.calls).Completed?
    ensures Handshake(subprotocols, extensions, Wire(true, Some(req), true), env).fate == Undefined(MissingProcessor)
  {
    var c := NewConnection(subprotocols, extensions);
    var c1 := RunHook(c, env.http).conn;
    assert RunHook(c, env.http) == Raised(c1, env.http.end.fault);
    RunHookKeepsNegotiation(c, env.http);
    assert PlainPath(c, req, env) == Threw(c1, [HttpHookRan], env.http.end.fault);
  }

  /** The read handler's part of a processor check that fails with 101: the
      fault is caught right after the processor was created, so the response
      says 101 while no URI is loaded. */
  lemma Check101Read(subprotocols: seq<string>, extensions: seq<string>, req: Request, env: Environment)
    requires IsUpgrade(req) && req.Header(VersionHeader) != ""
    requires IsSupportedVersion(Atoi(req.Header(VersionHeader)))
    requires env.processor.check.Fail? && env.processor.check.error.Status() == SwitchingProtocols
    ensures var o := HandleReadRequest(NewConnection(subprotocols, extensions), true, Some(req), env);
      && o.Ready? && o.events == [ProcessorCreated, ErrorLogged(env.processor.check.error)]
      && o.conn.response.status == SwitchingProtocols && o.conn.uri.None?
      && o.conn.hasProcessor && o.conn.upgradeRequested && o.conn.state == Connecting
  {
    var v := Atoi(req.Header(VersionHeader));
    assert DecideVersion(req.Header(VersionHeader)) == Accept(v);
    var c := NewConnection(subprotocols, extensions);
    var c1 := c.(upgradeRequested := true, version := v, hasProcessor := true);
    assert UpgradePath(c.(upgradeRequested := true), req, env) == Threw(c1, [ProcessorCreated], env.processor.check.error);
  }

  /** Without FaultsAreErrors: a processor check that fails with 101 opens the
      connection although no URI was loaded and the validate hook never ran. */
  lemma Check101Opens(subprotocols: seq<string>, extensions: seq<string>, req: Request, env: Environment)
    requires IsUpgrade(req) && req.Header(VersionHeader) != ""
    requires IsSupportedVersion(Atoi(req.Header(VersionHeader)))
    requires env.processor.check.Fail? && env.processor.check.error.Status() == SwitchingProtocols
    ensures var r := Handshake(subprotocols, extensions, Wire(true, Some(req), true), env);
      && r.fate == Opened && r.conn.uri.None? && ValidateHookRan !in r.events
  {
    Check101Read(subprotocols, extensions, req, env);
    var w := Wire(true, Some(req), true);
    var o := HandleReadRequest(NewConnection(subprotocols, extensions), true, Some(req), env);
    HandshakeAfterRead(subprotocols, extensions, w, env);
    UpgradeAnswerDisposed(o.conn, o.events, env.processor.responseHeaders);
    assert ValidateHookRan !in o.events + [OnOpen, FrameLoopStarted];
  }

  /** A run whose read handler left a response goes on to write it. */
  lemma HandshakeAfterRead(subprotocols: seq<string>, extensions: seq<string>, w: Wire, env: Environment)
    requires HandleReadRequest(NewConnection(subprotocols, extensions), w.readOk, w.request, env).Ready?
    ensures var o := HandleReadRequest(NewConnection(subprotocols, extensions), w.readOk, w.request, env);
      Handshake(subprotocols, extensions, w, env) ==
        WriteAndDispose(o.conn, o.events, env.processor.responseHeaders, w.writeOk)
  {
  }

  /** The Host header is split at its first colon into the host and the port
      text the URI is built from; without a colon the whole header is the host. */
  lemma HostHeaderExamples()
    ensures HostUriParts(false, "example.com:9000", "/chat") == UriParts(false, "example.com", Some("9000"), "/chat")
    ensures HostUriParts(true, "example.com", "/chat") == UriParts(true, "example.com", None, "/chat")
  {
    SplitHostJoin("example.com", "9000");
    assert "example.com" + [':'] + "9000" == "example.com:9000";
    assert ':' !in "example.com";
  }

  /** The Upgrade header is recognised in any letter case and among other tokens. */
  lemma UpgradeHeaderExamples(before: string, after: string)
    ensures ContainsIgnoreCase(before + "WebSocket" + after, "websocket")
    ensures !ContainsIgnoreCase("keep-alive", "websocket")
  {
    assert MatchesAt("WebSocket", "websocket", 0);
    ContainsIgnoreCaseIff("WebSocket", "websocket");
    ContainsIgnoreCaseInContext("WebSocket", "websocket", before, after);
    forall i: nat
      ensures !MatchesAt("keep-alive", "websocket", i)
    {
      if i + 9 <= 10 {
        assert ToLower("keep-alive"[i]) != ToLower("websocket"[0]);
      }
    }
    ContainsIgnoreCaseIff("keep-alive", "websocket");
  }
}

=== FILE: wrappers.dfy ===
/** Failure-carrying values shared by the other modules. */
module Wrappers {

  /** A value that may be missing: a null pointer, an absent header, a position not found. */
  datatype Option<+T> = None | Some(value: T)

  /** A computation that either produces a value or throws an error. */
  datatype Result<+T, +E> = Success(value: T) | Failure(error: E)

  /** A check that either passes or throws, producing no value. */
  datatype Outcome<+E> = Pass | Fail(error: E)
}
